=== FILE: README.md ===
# timerizer RelativeTime in Dafny

A model of the core of timerizer, a Ruby library for relative amounts of
time such as "5 days" or "2 years, 3 hours". The core is the `RelativeTime`
class (`lib/timerizer/relative_time.rb`) plus these parts of
`lib/timerizer.rb`: `Date#days_in_month`, the count-form constructor,
`average!`, and the `Time#+` / `Time#-` hooks that hand a `RelativeTime`
operand to `after` / `before`.

A `RelativeTime` holds two exact integers: seconds and months. They are kept
apart because a month has no fixed length in seconds. Ten units live on top
of them:

- second, minute, hour, day and week are counted in seconds;
- month, year, decade, century and millennium are counted in months.

Crossing between seconds and months is done by `normalize` and
`denormalize`, under one of three profiles: standard (30-day months,
365-day years), minimum (28 / 365) or maximum (31 / 366).

Modules, one per concern:

- `Results`: the `Option`/`Result` wrappers and the two exceptions the
  code raises.
- `Units`: the unit table, name resolution, and sorting largest first.
- `Durations`: the value and its constructors, `get`, `==`, `+` and `-`.
- `Counts`: the generated `in_<unit>` and `<unit>` helpers.
- `Conversions`: the profiles, `normalize`, `denormalize`, `to_unit_part`,
  `to_unit` and `average!`.
- `Decomposition`: `to_units` and the ordered hash it returns.
- `Calendar`: `days_in_month`, `before`, `after` and the `Time` hooks.
- `Formatting`: `to_s` with the `micro`, `short` and `long` presets.
- `Arith`: helper facts about floor division.

Ruby's `/` and `%` round toward negative infinity. For the positive divisors
used here that is exactly Dafny's `/` and `%`, so negative durations follow
floor semantics throughout.

Where the code and the repository's tests disagree, the model follows the
code:

- Minus one month normalizes to -35 days, not -30. Floor division gives
  -1 year plus 11 months, and a year of 365 days less 11 months of 30 days
  is 35 days.
- The default `to_s` is the `:long` preset, which lists `centuries` and
  `millennia`; in Ruby it raises NoMethodError (see Formatting.ToS under
  "Left out"), so a zero duration never prints "0 seconds". Where `to_s`
  succeeds (the `:micro` preset, or a custom format without those names),
  a zero duration prints as the empty string.
- The compound `before` example in the test lands on 1998-11-24, not
  1998-11-23.
- `before` and `after` read the months field through the `months` and
  `years` count helpers. These give the month digit and the year digit
  only, so the date moves by `months % 120`: whole decades (and anything
  larger) do not move the date.

The host clock is a parameter. `Time - seconds` and `Time + seconds` appear
as `shift: (Stamp, int) -> Stamp`, and the contracts are stated relative to
it.

## Model

| member | source | states |
|---|---|---|
| Units.FactorMonotone | lib/timerizer/relative_time.rb:3-14 | within one base domain, a unit later in the `UNITS` table is at least as large |
| Units.Superior | lib/timerizer/relative_time.rb:263-266 | the "superior unit" of the generated helpers is the next row of the table, and only the millennium has none |
| Units.Resolve | lib/timerizer/relative_time.rb:487-500 | a `UNITS` key resolves as is, else a `UNIT_PLURALS` key to its plural; it raises ArgumentError exactly when the name is neither spelling of any unit |
| Units.NamesAreDistinct | lib/timerizer/relative_time.rb:3-27 | no spelling is shared by two units, so resolution is unambiguous |
| Units.ResolveBothSpellings | lib/timerizer/relative_time.rb:487-500 | the plural and the singular of every unit both resolve to that unit |
| Units.ResolveAll | lib/timerizer/relative_time.rb:502-507 | resolving a list of names succeeds exactly when every name resolves, keeps the caller's spelling per entry, and otherwise raises ArgumentError |
| Units.Insert | lib/timerizer/relative_time.rb:502-507 | inserting into a list sorted largest-first keeps it sorted and adds exactly the new name (multiset) |
| Units.SortDescending | lib/timerizer/relative_time.rb:502-507 | `sort_units(units).reverse` is sorted largest unit first and is a permutation (multiset) of the request |
| Units.SortKeepsMembers | lib/timerizer/relative_time.rb:502-507 | sorting neither drops nor invents a name |
| Units.SortKeepsDistinct | lib/timerizer/relative_time.rb:502-507 | sorting distinct names yields distinct names |
| Durations.NewFromCount | lib/timerizer/relative_time.rb:155-163 | `new(count, unit)` puts count times the unit's factor into the unit's own field and leaves the other zero; an unknown unit gives zero in both fields |
| Durations.NewFromCountIsSingle | lib/timerizer/relative_time.rb:155-163 | the count-form constructor with a singular name builds the single-unit value |
| Durations.Single | lib/timerizer.rb:184-195 | the integer sugar `n.<unit>` puts n times the unit's factor into the unit's own field and nothing into the other |
| Durations.NewFromHash | lib/timerizer/relative_time.rb:151-154 | the `seconds` and `months` values are read into their fields, a missing key reads as 0, and every other key is ignored |
| Durations.Get | lib/timerizer/relative_time.rb:182-190 | `get` returns the seconds or months field, and any other key raises ArgumentError |
| Durations.GetThenNewFromHash | lib/timerizer/relative_time.rb:151-190 | rebuilding from the hash of `get(:seconds)` and `get(:months)` gives the same value back |
| Durations.Equals | lib/timerizer/relative_time.rb:170-176 | `==` is true exactly when the operand is a RelativeTime with equal seconds and equal months |
| Durations.Plus | lib/timerizer/relative_time.rb:378-384 | `+` of a RelativeTime adds the fields pairwise, as `get` reads them back; any other operand raises ArgumentError |
| Durations.Minus | lib/timerizer/relative_time.rb:389-395 | `-` of a RelativeTime subtracts the fields pairwise; any other operand raises ArgumentError |
| Durations.PlusThenMinus | lib/timerizer/relative_time.rb:378-395 | `(a + b) - b == a` for all durations |
| Durations.PlusCommutes | lib/timerizer/relative_time.rb:378-384 | `+` commutes, and zero is its identity |
| Durations.OperatorsAreComponentWise | lib/timerizer/relative_time.rb:378-395 | `+` and `-` never fail on RelativeTimes and act field by field |
| Counts.InUnitRoundsDown | lib/timerizer/relative_time.rb:268-280 | `Counts.InUnit`, the `in_<unit>` helper, is the largest count of the unit that fits into the unit's own field |
| Counts.CountIsDigit | lib/timerizer/relative_time.rb:282-294 | below the largest unit of its domain, `Counts.Count` (the `<unit>` helper) is `in_<unit>` modulo the number of units in the next larger one, so it lies in 0..radix-1 |
| Counts.CountWeekIsWhole | lib/timerizer/relative_time.rb:263-295 | `weeks` and `millennia` subtract nothing: their superior holds no seconds, or they have none |
| Counts.SecondsFromCounts | lib/timerizer/relative_time.rb:263-295 | seconds + 60·minutes + 3600·hours + 86400·days + 604800·weeks rebuilds the seconds field exactly |
| Counts.MonthsFromCounts | lib/timerizer/relative_time.rb:263-295 | months + 12·years + 120·decades + 1200·centuries + 12000·millennia rebuilds the months field exactly |
| Counts.YearsAndMonthsModulo120 | lib/timerizer/relative_time.rb:263-295 | the `months` and `years` helpers are digits 0..11 and 0..9, and together they give the months field modulo 120 |
| Conversions.ProfileNamed | lib/timerizer/relative_time.rb:29-42 | `NORMALIZATION_METHODS.fetch` knows standard, minimum and maximum, and raises KeyError for any other name |
| Conversions.NormalizeYearRow | lib/timerizer/relative_time.rb:325-346 | the year row moves the whole years of the months field into seconds and leaves 0..11 months |
| Conversions.NormalizeMonthRow | lib/timerizer/relative_time.rb:325-346 | the month row moves every remaining month into seconds |
| Conversions.NormalizeByClosedForm | lib/timerizer/relative_time.rb:325-346 | `Conversions.NormalizeBy`, the reduce of `normalize` at any month and year rates, gives seconds + (months div 12)·year + (months mod 12)·month and no months, for any rates |
| Conversions.Normalize | lib/timerizer/relative_time.rb:325-346 | the normalized value has no months |
| Conversions.NormalizeClosedForm | lib/timerizer/relative_time.rb:29-42 | the normalized seconds under each of the three profiles, with the profile's own month and year lengths |
| Conversions.DenormalizeYearRow | lib/timerizer/relative_time.rb:348-373 | the year row moves whole years of seconds into 12 months each and keeps the seconds remainder |
| Conversions.DenormalizeMonthRow | lib/timerizer/relative_time.rb:348-373 | the month row moves whole months of seconds into months and keeps the remainder |
| Conversions.DenormalizeByClosedForm | lib/timerizer/relative_time.rb:348-373 | `Conversions.DenormalizeBy`, the reduce of `denormalize` at any month and year rates, adds 12·(s div Y) + (s mod Y) div M months and leaves (s mod Y) mod M seconds |
| Conversions.Denormalize | lib/timerizer/relative_time.rb:348-373 | the seconds left are non-negative and below one month of the profile |
| Conversions.DenormalizeClosedForm | lib/timerizer/relative_time.rb:29-42 | the denormalized value under each of the three profiles |
| Conversions.NormalizeKeepsSeconds | lib/timerizer/relative_time.rb:325-346 | normalizing a duration without months changes nothing |
| Conversions.DenormalizeByKeepsSmall | lib/timerizer/relative_time.rb:348-373 | denormalizing leaves alone a duration whose seconds are already below one month |
| Conversions.NormalizeIdempotent | lib/timerizer/relative_time.rb:325-346 | normalizing twice is normalizing once |
| Conversions.DenormalizeIdempotent | lib/timerizer/relative_time.rb:348-373 | denormalizing twice is denormalizing once |
| Conversions.NormalizeNegativeMonths | lib/timerizer/relative_time.rb:325-346 | -k months (1 ≤ k ≤ 12) normalize by floor division to (12-k) standard months minus one standard year |
| Conversions.NormalizePositiveMonths | lib/timerizer/relative_time.rb:325-346 | 0..11 months normalize to that many 30-day months |
| Conversions.ToUnitPart | lib/timerizer/relative_time.rb:473-485 | `to_unit_part` is `in_<unit>` of the resolved unit, without crossing domains; an unknown name raises ArgumentError |
| Conversions.ToUnitPartRoundsDown | lib/timerizer/relative_time.rb:473-485 | the result is the largest count of the unit that fits into the unit's own field |
| Conversions.ToUnitRoundsDown | lib/timerizer/relative_time.rb:297-309 | `Conversions.ToUnit`, `to_unit` of a resolved unit, is the largest count of the unit that fits into the standard-normalized seconds, or the standard-denormalized months |
| Conversions.ToUnitNamed | lib/timerizer/relative_time.rb:297-309 | `to_unit(name)` fails with ArgumentError exactly when the name does not resolve, and is otherwise `to_unit` of the resolved unit |
| Conversions.SecondsUnitRoundTrip | lib/timerizer/relative_time.rb:297-309 | `n.<seconds unit>.to_unit(unit) == n` |
| Conversions.MonthsUnitRoundTrip | lib/timerizer/relative_time.rb:297-309 | `n.<months unit>.to_unit(unit) == n` |
| Conversions.ToUnitOfSingle | lib/timerizer/relative_time.rb:297-309 | `n` units converted back to that unit give `n`, for every unit |
| Conversions.ToUnitOfPure | lib/timerizer/relative_time.rb:297-309 | on a duration that lives only in the unit's own domain, `to_unit` is the floored quotient of that field |
| Conversions.ToUnitNamedRoundTrip | lib/timerizer/relative_time.rb:297-309 | `new(n, singular).to_unit(plural or singular) == n` |
| Conversions.Average | lib/timerizer.rb:114-122 | `average!` clears the months |
| Conversions.AverageIsNormalize | lib/timerizer.rb:114-122 | `average!` equals normalizing at the average month and year lengths of the loaded table |
| Decomposition.Decompose | lib/timerizer/relative_time.rb:313-320 | the reduce of `to_units` yields one part per requested unit |
| Decomposition.DecomposeConserves | lib/timerizer/relative_time.rb:313-320 | the parts, multiplied back out, plus the final remainder give the original duration, whatever the units |
| Decomposition.PureDecompose | lib/timerizer/relative_time.rb:311-323 | in one domain the parts are mixed-radix digits: the first is the floored quotient, each later part is non-negative and below one of the unit before, and the remainder is in 0..(last factor - 1) |
| Decomposition.PureDecomposeBy | lib/timerizer/relative_time.rb:313-320 | the same for any per-unit count that is the floored quotient on values of the unit's own domain |
| Decomposition.RecomposeBalance | lib/timerizer/relative_time.rb:311-323 | the parts put back together fall short of the duration by at least 0 and less than one of the last unit |
| Decomposition.Put | lib/timerizer/relative_time.rb:320 | `merge(unit => part)` gives an existing key the new value in its old position, and appends a new key at the end |
| Decomposition.PutKeys | lib/timerizer/relative_time.rb:320 | `merge(unit => part)` keeps keys distinct and adds exactly the new key |
| Decomposition.MergeAll | lib/timerizer/relative_time.rb:313-320 | merging entries one by one keeps keys distinct and has exactly the keys of both sides |
| Decomposition.MergeAllDistinct | lib/timerizer/relative_time.rb:313-320 | with no repeated key, merging appends in order |
| Decomposition.MergeAllFrom | lib/timerizer/relative_time.rb:320 | every merged entry comes from the old hash or from the merged entries |
| Decomposition.EntriesNamed | lib/timerizer/relative_time.rb:311-323 | the entries carry exactly the caller's names, each with the part of the unit it resolves to |
| Decomposition.SortedLabelNamed | lib/timerizer/relative_time.rb:311-323 | labelling the sorted units keeps exactly the caller's names, each resolving to its unit |
| Decomposition.EntriesDistinct | lib/timerizer/relative_time.rb:313-320 | with distinct names the merge step changes nothing |
| Decomposition.ToUnits | lib/timerizer/relative_time.rb:311-323 | `to_units` fails with ArgumentError exactly when a name does not resolve; otherwise its keys are exactly the requested names, distinct, largest unit first |
| Decomposition.TotalOfLabel | lib/timerizer/relative_time.rb:311-323 | the sum of the hash's values as durations is the recomposition of the parts |
| Decomposition.SortedUnits | lib/timerizer/relative_time.rb:312 | the sorted units stay in the one domain, and the last one is the smallest requested unit |
| Decomposition.ToUnitsIsEntries | lib/timerizer/relative_time.rb:311-323 | for distinct resolvable names, `to_units` is the labelled parts of the decomposition over the sorted units |
| Decomposition.TotalOfEntries | lib/timerizer/relative_time.rb:311-323 | the entries sum to the recomposition over the sorted units |
| Decomposition.EntriesCover | lib/timerizer/relative_time.rb:311-323 | in one domain the entries account for the duration up to less than one of every requested unit, and never for more |
| Decomposition.EntriesCoverByName | lib/timerizer/relative_time.rb:311-323 | the same bound stated for the names as spelled |
| Decomposition.ToUnitsCoversAllButLessThanSmallest | lib/timerizer/relative_time.rb:311-323 | for distinct names of one domain on a duration of that domain, the returned hash sums to the duration less some r with 0 ≤ r below every requested unit |
| Decomposition.DecomposeZero | lib/timerizer/relative_time.rb:313-320 | every part of the zero duration is zero |
| Decomposition.ToUnitsOfZero | lib/timerizer/relative_time.rb:311-323 | every value `to_units` returns for the zero duration is zero |
| Calendar.DaysInMonth | lib/timerizer.rb:169-177 | 31 days exactly for months 1, 3, 5, 7, 8, 10, 12; 30 exactly for 4, 6, 9, 11; February has 29 exactly in a leap year and 28 otherwise |
| Calendar.FromMonthNumber | lib/timerizer/relative_time.rb:206-209 | a month count splits into a year and a month in 1..12 that add back to it |
| Calendar.MonthNumberUnique | lib/timerizer/relative_time.rb:206-209 | a year and a month in 1..12 are determined by their month count |
| Calendar.CarryBack | lib/timerizer/relative_time.rb:206-209 | the `while new_month < 1` loop ends with the month at least 1 (at most 12 if it was), and 12·year + month unchanged |
| Calendar.CarryForward | lib/timerizer/relative_time.rb:238-241 | the `while new_month > 12` loop ends with the month at most 12 (at least 1 if it was), and 12·year + month unchanged |
| Calendar.CarryIsFloorDivision | lib/timerizer/relative_time.rb:206-241 | both carry loops compute the floor-division split of the month count, and leave an in-range month alone |
| Calendar.ValidDate | lib/timerizer/relative_time.rb:210-214 | `Date.valid_date?`: every month has days 1 to 28, February 29 exists exactly in leap years, day 30 in every month but February, and day 31 exactly in the seven long months |
| Calendar.ClampDay | lib/timerizer/relative_time.rb:210-214 | the day is kept exactly when the target month has it, otherwise it becomes the month's last day; the result is a valid date |
| Calendar.BeforeDate | lib/timerizer/relative_time.rb:201-215 | the date moves back by `months % 120` months and the day is kept or clamped to the month's end; the result is a valid date |
| Calendar.AfterDate | lib/timerizer/relative_time.rb:234-247 | the date moves forward by `months % 120` months and the day is kept or clamped; the result is a valid date |
| Calendar.AfterUndoesBefore | lib/timerizer/relative_time.rb:201-247 | for days up to the 28th, `after` undoes `before` on the date |
| Calendar.BeforeUndoesAfter | lib/timerizer/relative_time.rb:201-247 | for days up to the 28th, `before` undoes `after` on the date |
| Calendar.DecadesDoNotMoveTheDate | lib/timerizer/relative_time.rb:203-205 | any number of decades leaves the date unchanged under both `before` and `after` |
| Calendar.BeforeDateIs | lib/timerizer/relative_time.rb:201-215 | `before` lands on the month that is `months % 120` earlier, with the clamped day |
| Calendar.AfterDateIs | lib/timerizer/relative_time.rb:234-247 | `after` lands on the month that is `months % 120` later, with the clamped day |
| Calendar.MonthsAroundNewYear | lib/timerizer/relative_time.rb:201-247 | 5 and 65 months before, and 65 months after, 2000-01-01 land on 1999-08-01, 1994-08-01 and 2005-06-01 |
| Calendar.MonthAroundLeapFebruary | lib/timerizer/relative_time.rb:210-214 | one month before March 31 and after January 31 of a leap year is February 29 |
| Calendar.Before | lib/timerizer/relative_time.rb:201-221 | seconds are taken off first by the host clock; then the date moves back as `Calendar.BeforeDate` states (day kept or clamped), the clock time is kept, and the nanoseconds are cut to whole microseconds |
| Calendar.After | lib/timerizer/relative_time.rb:234-255 | seconds are added first by the host clock; then the date moves forward as `Calendar.AfterDate` states (day kept or clamped), and the clock time is kept |
| Calendar.TimePlus | lib/timerizer.rb:141-148 | `Time + x` is `x.after(time)` for a RelativeTime and the host addition for an integer |
| Calendar.TimeMinus | lib/timerizer.rb:150-157 | `Time - x` is `x.before(time)` for a RelativeTime and the host subtraction for an integer |
| Calendar.PlusThenMinusRelative | lib/timerizer.rb:141-157 | for a months-only duration, a day up to the 28th and a time in whole microseconds (`nanos % 1000 == 0`), `(t + d) - d == t`, given that the host shift by 0 leaves both `t` and `t + d` unchanged |
| Formatting.SyntaxOf | lib/timerizer/relative_time.rb:409-417 | a Symbol picks a preset (an unknown one raises KeyError), a Hash is used as is, anything else raises ArgumentError |
| Formatting.Merge | lib/timerizer/relative_time.rb:419 | `Hash#merge`: every key present in the options (`units`, `separator`, `delimiter`, `count`, even when given as `nil`) replaces the syntax's entry, and every absent key keeps it; merging no options keeps the syntax |
| Formatting.CountOf | lib/timerizer/relative_time.rb:421-425 | a missing, `nil` or `:all` count stands for all ten units; a number is taken as given |
| Formatting.Positive | lib/timerizer/relative_time.rb:428 | `select { n > 0 }` keeps exactly the positive entries |
| Formatting.PositiveAppend | lib/timerizer/relative_time.rb:428 | selecting from a concatenation is the concatenation of the selections, so the hash order is kept |
| Formatting.FirstPositive | lib/timerizer/relative_time.rb:428 | the first entry selected is the first positive one |
| Formatting.PositiveNone | lib/timerizer/relative_time.rb:428 | nothing is selected from entries that are all zero or negative |
| Formatting.Shown | lib/timerizer/relative_time.rb:421-432 | the shown entries are the first `min(count, #positive)` positive parts of `to_units`, in order; no `units` raises KeyError, an unknown unit or a negative count raises ArgumentError |
| Formatting.FirstShownIsLargestPositive | lib/timerizer/relative_time.rb:428-432 | the first shown entry is the largest requested unit with a positive part |
| Formatting.Lookup | lib/timerizer/relative_time.rb:433 | `syntax_units.fetch(unit)` finds a wording exactly when the name is listed, and that wording is listed under it |
| Formatting.UnitName | lib/timerizer/relative_time.rb:435-448 | a plain label serves for every count; a pair gives the singular for exactly one and the plural otherwise, falling back to the singular |
| Formatting.NatToString | lib/timerizer/relative_time.rb:450 | the number is written with decimal digits only, with no leading zero |
| Formatting.ParseNatToString | lib/timerizer/relative_time.rb:450 | reading the digits back gives the number |
| Formatting.PieceReadsBack | lib/timerizer/relative_time.rb:450 | `Formatting.Piece`, `[n, unit_name].join(separator)`, is the number's digits (which read back as the number), then the separator, then the unit name |
| Formatting.Join | lib/timerizer/relative_time.rb:451 | joining no pieces is empty and joining one piece is that piece |
| Formatting.JoinSnoc | lib/timerizer/relative_time.rb:451 | joining one more part appends the delimiter and that part, so the pieces appear in order with one delimiter between neighbours |
| Formatting.JoinLength | lib/timerizer/relative_time.rb:451 | the joined text is as long as the pieces plus one delimiter between each pair |
| Formatting.Render | lib/timerizer/relative_time.rb:432-450 | one piece per shown entry, in order, built from its wording; a missing wording raises KeyError |
| Formatting.ToS | lib/timerizer/relative_time.rb:408-452 | a format that is neither Symbol nor Hash, or an unknown preset, fails with that error |
| Formatting.ShownNamesHaveWording | lib/timerizer/relative_time.rb:427-433 | every shown name is one of the syntax's units, so fetching its wording never fails |
| Formatting.ToSErrors | lib/timerizer/relative_time.rb:408-452 | `to_s` fails exactly for a bad format, no `units`, an unknown unit or a negative count, each with its own exception |
| Formatting.ToSFollowsShown | lib/timerizer/relative_time.rb:408-452 | once the syntax is known, `to_s` fails exactly when choosing the entries fails, with the same error |
| Formatting.ToSText | lib/timerizer/relative_time.rb:430-451 | the text is the shown entries (at most `count`, all positive) written as digits, separator and unit name, joined by the delimiter (defaults " " and ", ") |
| Formatting.ZeroRendersEmpty | lib/timerizer/relative_time.rb:427-451 | a zero duration is written as the empty string whenever `to_s` does not fail |
| Formatting.CustomWithoutUnits | lib/timerizer/relative_time.rb:419-427 | a Hash format without `units`, merged with options without `units`, raises KeyError |

## Left out

- Durations.Single: the model uses the single-unit constructor for the integer sugar `n.send(name)`, for every spelling of every unit. In Ruby the sugar (lib/timerizer.rb:184-195) defines only the singular names of the table it reads at load time, plus their `s` forms (`centurys`, `millenium`, `milleniums`). So `centuries`, `millennia` and `millennium` have no method in Ruby.
- Decomposition.ToUnits: because of that sugar, Ruby's `to_units` with `centuries`, `millennia` or `millennium` raises NoMethodError, while the model returns the parts.
- Formatting.ToS: for the same reason, `to_s(:long)` and `to_s(:short)` raise NoMethodError in Ruby (both presets list `centuries` and `millennia`), while the model writes the text. Only `:micro` and custom formats without those names behave alike.
- Counts.Count: the `centuries` helper calls `in_millennia.millennium`, which has no sugar method in Ruby; the model computes it.
- Durations.NewFromCount: follows relative_time.rb's tables, which spell `millennium`. lib/timerizer.rb's own constructor table spells it `millenium`, and which table applies depends on load order.
- Conversions.Average: `average!` updates the receiver's seconds and months in place. The model returns the averaged value instead, and does not model Ruby's return value, which is 0 (the value of the last assignment `@months = 0`).
- Units.SortDescending: Ruby's `sort_by` promises no order for two spellings of one unit. The model keeps them in the caller's order, where a stable sort followed by `reverse` would swap them. This decides which spelling receives the part in `to_units(:second, :seconds)`.
- Durations.NewFromHash: the `units.default = 0` mutation of the caller's hash is not modelled; a map is a value here.
- Calendar.DaysInMonth: uses the Gregorian leap rule for every year. Ruby's `Date#leap?` and `Date.valid_date?` are Julian before 1582-10-15, so (1500, 2, 29) is valid in Ruby and not in the model. Calendar.IsLeap and Calendar.ValidDate share this.
- Calendar.After: passes the nanoseconds through exactly. Ruby rebuilds the time from the float `nsec / 1000.0` microseconds, so the last digits may differ.
- Calendar.Before: `Time.new` rebuilds a local time from the new date and the old clock time. Time zones, DST gaps and the conversion to and from epoch seconds are not modelled, and neither are `Time.at` and `to_i`. Calendar.After shares this.
- Calendar.TimePlus: a non-RelativeTime operand is only an integer number of seconds. Float seconds are left out. Calendar.TimeMinus also leaves out `Time - Time`, which returns a Float.
- `ago` and `from_now`: they read the clock; they are `before` and `after` at the current time.
- `to_wall`: the WallClock class is not part of this model.
- lib/timerizer.rb's older `initialize`, `before`, `after`, `to_s` and count helpers: the model assumes lib/timerizer/relative_time.rb is loaded after lib/timerizer.rb, so that its definitions replace these. Neither file requires the other. In the opposite order the count-only `initialize` of lib/timerizer.rb:25-34 wins, and `+` and `-` (which pass a Hash) raise NoMethodError; that order is not modelled.
- `Time#to_date`, `Time#to_time` and `Date#to_date` are conversions of the host library and are not modelled.
- Formatting.Shown: `options` of `nil` and `{}` are both `NoOptions`; a syntax whose `units` key is present with `nil` is treated as missing, not as a NoMethodError on `nil.keys`.

=== FILE: arith.dfy ===
/** Facts about floor division by a positive divisor. */
module Arith {
  /** Zero divided by, or taken times, a positive number is zero. */
  lemma ZeroQuotient(c: int)
    requires c > 0
    ensures 0 / c == 0 && 0 * c == 0
  {
  }

  lemma MulAtLeast(a: int, c: int)
    requires a >= 1 && c > 0
    ensures a * c >= c
  {
    assert a * c == (a - 1) * c + c;
    assert (a - 1) * c >= 0;
  }

  /** Quotient and remainder are determined by `x == q * c + r, 0 <= r < c`. */
  lemma DivUnique(x: int, c: int, q: int, r: int)
    requires c > 0 && x == q * c + r && 0 <= r < c
    ensures x / c == q && x % c == r
  {
    var q' := x / c;
    var r' := x % c;
    assert x == q' * c + r';
    if q > q' {
      assert (q - q') * c == r' - r;
      MulAtLeast(q - q', c);
      assert false;
    } else if q < q' {
      assert (q' - q) * c == r - r';
      MulAtLeast(q' - q, c);
      assert false;
    }
  }

  lemma MulDiv(a: int, c: int)
    requires c > 0
    ensures (a * c) / c == a
  {
    DivUnique(a * c, c, a, 0);
  }

  /** Dividing twice is dividing by the product. */
  lemma DivDiv(x: int, a: int, b: int)
    requires a > 0 && b > 0
    ensures (x / a) / b == x / (a * b)
  {
    var q := x / a;
    var r := x % a;
    var q2 := q / b;
    var r2 := q % b;
    assert x == q * a + r;
    assert q == q2 * b + r2;
    assert x == q2 * (a * b) + (r2 * a + r) by {
      assert q * a == (q2 * b + r2) * a;
      assert (q2 * b + r2) * a == q2 * (a * b) + r2 * a;
    }
    assert r2 * a <= (b - 1) * a by {
      assert (b - 1) * a - r2 * a == (b - 1 - r2) * a;
      if b - 1 - r2 >= 1 { MulAtLeast(b - 1 - r2, a); }
    }
    assert (b - 1) * a + a == a * b;
    DivUnique(x, a * b, q2, r2 * a + r);
  }

  /** Whole `f`s not covered by whole `f * k`s form the digit `(x / f) % k`. */
  lemma DigitOf(x: int, f: int, k: int)
    requires f > 0 && k > 0
    ensures x / f - ((x / (f * k)) * (f * k)) / f == (x / f) % k
    ensures 0 <= (x / f) % k < k
  {
    var q := x / (f * k);
    DivDiv(x, f, k);
    assert q * (f * k) == (q * k) * f;
    MulDiv(q * k, f);
  }

  /** Taking away the whole `c`s leaves the remainder, which a non-negative
      `x` bounds from above. */
  lemma Remainder(x: int, c: int)
    requires c > 0
    ensures x - (x / c) * c == x % c
    ensures 0 <= x % c < c
    ensures x >= 0 ==> 0 <= x / c && (x / c) * c <= x
  {
    assert x == (x / c) * c + x % c;
  }

  /** A seconds count written in the mixed radix of minutes, hours, days and weeks. */
  lemma SecondsDigits(s: int, c0: int, c1: int, c2: int, c3: int, c4: int)
    requires c0 == s % 60 && c1 == (s / 60) % 60 && c2 == (s / 3600) % 24
    requires c3 == (s / 86400) % 7 && c4 == s / 604800
    ensures s == c0 + 60 * c1 + 3600 * c2 + 86400 * c3 + 604800 * c4
  {
    var q1, q2, q3, q4 := s / 60, s / 3600, s / 86400, s / 604800;
    DivDiv(s, 60, 60);
    DivDiv(s, 3600, 24);
    DivDiv(s, 86400, 7);
    assert s == 60 * q1 + s % 60;
    assert q1 == 60 * q2 + q1 % 60;
    assert q2 == 24 * q3 + q2 % 24;
    assert q3 == 7 * q4 + q3 % 7;
  }

  /** A months count written in the mixed radix of years, decades, centuries and millennia. */
  lemma MonthDigits(m: int, c0: int, c1: int, c2: int, c3: int, c4: int)
    requires c0 == m % 12 && c1 == (m / 12) % 10 && c2 == (m / 120) % 10
    requires c3 == (m / 1200) % 10 && c4 == m / 12000
    ensures m == c0 + 12 * c1 + 120 * c2 + 1200 * c3 + 12000 * c4
  {
    var q1, q2, q3, q4 := m / 12, m / 120, m / 1200, m / 12000;
    DivDiv(m, 12, 10);
    DivDiv(m, 120, 10);
    DivDiv(m, 1200, 10);
    assert m == 12 * q1 + m % 12;
    assert q1 == 10 * q2 + q1 % 10;
    assert q2 == 10 * q3 + q2 % 10;
    assert q3 == 10 * q4 + q3 % 10;
  }
}

=== FILE: calendar.dfy ===
/** Calendar arithmetic of `before` and `after`: the seconds are applied by
    the host clock, then the month and year counts move the calendar date,
    the month is carried into the year, and a day that does not exist in the
    target month is clamped to the month's last day. `Time#+` and `Time#-`
    hand a RelativeTime operand to `after` and `before`. */
module Calendar {
  import opened Units
  import opened Durations
  import opened Counts
  import opened Arith

  /** Leap years of the Gregorian calendar. */
  predicate IsLeap(year: int) {
    year % 4 == 0 && (year % 100 != 0 || year % 400 == 0)
  }

  /** `Date#days_in_month`: the month's entry in the table of month lengths,
      February taking 29 days in a leap year and 28 otherwise. */
  function DaysInMonth(year: int, month: int): (n: int)
    requires 1 <= month <= 12
    ensures 28 <= n <= 31
    ensures month == 2 ==> (n == 29 <==> IsLeap(year)) && (n == 28 <==> !IsLeap(year))
    ensures n == 31 <==> month in {1, 3, 5, 7, 8, 10, 12}
    ensures n == 30 <==> month in {4, 6, 9, 11}
  {
    var daysInFeb := if !IsLeap(year) then 28 else 29;
    var table := [31, daysInFeb, 31, 30, 31, 30, 31, 31, 30, 31, 30, 31];
    table[month - 1]
  }

  datatype Date = Date(year: int, month: int, day: int)

  /** `Date.valid_date?` for a day of month counted from 1: every month has
      the days 1 to 28, February the 29th only in a leap year, and the 31st
      exists only in the seven long months. */
  function ValidDate(d: Date): (b: bool)
    ensures b ==> 1 <= d.month <= 12 && 1 <= d.day <= 31
    ensures 1 <= d.month <= 12 && 1 <= d.day <= 28 ==> b
    ensures d.month == 2 && d.day == 29 ==> (b <==> IsLeap(d.year))
    ensures d.month == 2 ==> (b ==> d.day <= 29)
    ensures d.day == 30 && 1 <= d.month <= 12 ==> (b <==> d.month != 2)
    ensures d.day == 31 ==> (b <==> d.month in {1, 3, 5, 7, 8, 10, 12})
  {
    1 <= d.month <= 12 && 1 <= d.day <= DaysInMonth(d.year, d.month)
  }

  /** A year and a month index that may lie outside 1..12. */
  datatype YearMonth = YearMonth(year: int, month: int)

  /** Months since the start of year 0: the quantity the carry loops keep. */
  function MonthNumber(ym: YearMonth): int {
    12 * ym.year + ym.month
  }

  /** The year and month (1..12) of a month number, by floor division. */
  function FromMonthNumber(k: int): (ym: YearMonth)
    ensures 1 <= ym.month <= 12
    ensures MonthNumber(ym) == k
  {
    YearMonth((k - 1) / 12, (k - 1) % 12 + 1)
  }

  /** A month number names one year and one month in 1..12. */
  lemma MonthNumberUnique(a: YearMonth, b: YearMonth)
    requires 1 <= a.month <= 12 && 1 <= b.month <= 12
    requires MonthNumber(a) == MonthNumber(b)
    ensures a == b
  {
  }

  /** The loop of `before`: while the month is below 1, add 12 to it and
      take one off the year. */
  function CarryBack(ym: YearMonth): (r: YearMonth)
    ensures 1 <= r.month
    ensures ym.month <= 12 ==> r.month <= 12
    ensures MonthNumber(r) == MonthNumber(ym)
    decreases if ym.month < 1 then 1 - ym.month else 0
  {
    if ym.month < 1 then CarryBack(YearMonth(ym.year - 1, ym.month + 12)) else ym
  }

  /** The loop of `after`: while the month is above 12, take 12 from it and
      add one to the year. */
  function CarryForward(ym: YearMonth): (r: YearMonth)
    ensures r.month <= 12
    ensures 1 <= ym.month ==> 1 <= r.month
    ensures MonthNumber(r) == MonthNumber(ym)
    decreases if ym.month > 12 then ym.month - 12 else 0
  {
    if ym.month > 12 then CarryForward(YearMonth(ym.year + 1, ym.month - 12)) else ym
  }

  /** Both loops, started on their own side of the range, end on the
      floor-division form of the month number; a month already in 1..12 is
      left alone. */
  lemma CarryIsFloorDivision(ym: YearMonth)
    ensures ym.month <= 12 ==> CarryBack(ym) == FromMonthNumber(MonthNumber(ym))
    ensures 1 <= ym.month ==> CarryForward(ym) == FromMonthNumber(MonthNumber(ym))
    ensures 1 <= ym.month <= 12 ==> CarryBack(ym) == ym && CarryForward(ym) == ym
  {
    var n := FromMonthNumber(MonthNumber(ym));
    if ym.month <= 12 {
      MonthNumberUnique(CarryBack(ym), n);
    }
    if 1 <= ym.month {
      MonthNumberUnique(CarryForward(ym), n);
    }
  }

  /** The day kept by `before`/`after`: the original day when it exists in
      the target month, otherwise the target month's last day. */
  function ClampDay(year: int, month: int, day: int): (r: int)
    requires 1 <= month <= 12 && 1 <= day
    ensures ValidDate(Date(year, month, r))
    ensures r <= day
    ensures r == day <==> day <= DaysInMonth(year, month)
    ensures r != day ==> r == DaysInMonth(year, month)
  {
    if ValidDate(Date(year, month, day)) then day else DaysInMonth(year, month)
  }

  /** The date part of `before`: the `years` and `months` counts of the
      duration are taken off the date's year and month, the month is carried
      back into 1..12, and the day is clamped to the target month. */
  function BeforeDate(d: Duration, date: Date): (r: Date)
    requires ValidDate(date)
    ensures ValidDate(r)
    ensures MonthNumber(YearMonth(r.year, r.month))
         == MonthNumber(YearMonth(date.year, date.month)) - d.months % 120
    ensures r.day == date.day <==> date.day <= DaysInMonth(r.year, r.month)
    ensures r.day != date.day ==> r.day == DaysInMonth(r.year, r.month)
  {
    YearsAndMonthsModulo120(d);
    var ym := CarryBack(YearMonth(date.year - Count(d, Year), date.month - Count(d, Month)));
    Date(ym.year, ym.month, ClampDay(ym.year, ym.month, date.day))
  }

  /** The date part of `after`: the `years` and `months` counts are added,
      the month is carried forward into 1..12, and the day is clamped. */
  function AfterDate(d: Duration, date: Date): (r: Date)
    requires ValidDate(date)
    ensures ValidDate(r)
    ensures MonthNumber(YearMonth(r.year, r.month))
         == MonthNumber(YearMonth(date.year, date.month)) + d.months % 120
    ensures r.day == date.day <==> date.day <= DaysInMonth(r.year, r.month)
    ensures r.day != date.day ==> r.day == DaysInMonth(r.year, r.month)
  {
    YearsAndMonthsModulo120(d);
    var ym := CarryForward(YearMonth(date.year + Count(d, Year), date.month + Count(d, Month)));
    Date(ym.year, ym.month, ClampDay(ym.year, ym.month, date.day))
  }

  /** On a day that every month has, `after` undoes `before`. */
  lemma AfterUndoesBefore(d: Duration, date: Date)
    requires ValidDate(date) && date.day <= 28
    ensures AfterDate(d, BeforeDate(d, date)) == date
  {
    var b := BeforeDate(d, date);
    var a := AfterDate(d, b);
    MonthNumberUnique(YearMonth(a.year, a.month), YearMonth(date.year, date.month));
  }

  /** On a day that every month has, `before` undoes `after`. */
  lemma BeforeUndoesAfter(d: Duration, date: Date)
    requires ValidDate(date) && date.day <= 28
    ensures BeforeDate(d, AfterDate(d, date)) == date
  {
    var a := AfterDate(d, date);
    var b := BeforeDate(d, a);
    MonthNumberUnique(YearMonth(b.year, b.month), YearMonth(date.year, date.month));
  }

  /** The `years` count stops below a decade, so whole decades (and
      centuries and millennia) of months do not move the date at all. */
  lemma DecadesDoNotMoveTheDate(n: int, date: Date)
    requires ValidDate(date)
    ensures BeforeDate(Single(n, Decade), date) == date
    ensures AfterDate(Single(n, Decade), date) == date
  {
    var d := Single(n, Decade);
    assert d.months == n * 120;
    DivUnique(d.months, 120, n, 0);
    var b := BeforeDate(d, date);
    MonthNumberUnique(YearMonth(b.year, b.month), YearMonth(date.year, date.month));
    var a := AfterDate(d, date);
    MonthNumberUnique(YearMonth(a.year, a.month), YearMonth(date.year, date.month));
  }

  /** `before` lands in the one month whose month number is the original
      less the months field modulo 120, on the clamped day. */
  lemma BeforeDateIs(d: Duration, date: Date, year: int, month: int)
    requires ValidDate(date) && 1 <= month <= 12
    requires 12 * year + month == 12 * date.year + date.month - d.months % 120
    ensures BeforeDate(d, date) == Date(year, month, ClampDay(year, month, date.day))
  {
    var b := BeforeDate(d, date);
    MonthNumberUnique(YearMonth(b.year, b.month), YearMonth(year, month));
  }

  /** `after` lands in the one month whose month number is the original
      plus the months field modulo 120, on the clamped day. */
  lemma AfterDateIs(d: Duration, date: Date, year: int, month: int)
    requires ValidDate(date) && 1 <= month <= 12
    requires 12 * year + month == 12 * date.year + date.month + d.months % 120
    ensures AfterDate(d, date) == Date(year, month, ClampDay(year, month, date.day))
  {
    var a := AfterDate(d, date);
    MonthNumberUnique(YearMonth(a.year, a.month), YearMonth(year, month));
  }

  /** Five months before New Year's Day carry into the year before; 65
      months are five years and five months, in either direction. */
  lemma MonthsAroundNewYear()
    ensures BeforeDate(Single(5, Month), Date(2000, 1, 1)) == Date(1999, 8, 1)
    ensures BeforeDate(Single(65, Month), Date(2000, 1, 1)) == Date(1994, 8, 1)
    ensures AfterDate(Single(65, Month), Date(2000, 1, 1)) == Date(2005, 6, 1)
  {
    assert ValidDate(Date(2000, 1, 1));
    assert Single(5, Month).months % 120 == 5 && Single(65, Month).months % 120 == 65;
    BeforeDateIs(Single(5, Month), Date(2000, 1, 1), 1999, 8);
    BeforeDateIs(Single(65, Month), Date(2000, 1, 1), 1994, 8);
    AfterDateIs(Single(65, Month), Date(2000, 1, 1), 2005, 6);
  }

  /** A month before the 31st of March of a leap year is the 29th of
      February, and a month after the 31st of January is the same day. */
  lemma MonthAroundLeapFebruary(year: int)
    requires IsLeap(year)
    ensures BeforeDate(Single(1, Month), Date(year, 3, 31)) == Date(year, 2, 29)
    ensures AfterDate(Single(1, Month), Date(year, 1, 31)) == Date(year, 2, 29)
  {
    BeforeDateIs(Single(1, Month), Date(year, 3, 31), year, 2);
    AfterDateIs(Single(1, Month), Date(year, 1, 31), year, 2);
  }

  /** A point in time as the host `Time` exposes it. */
  datatype Stamp = Stamp(date: Date, hour: int, minute: int, second: int, nanos: int)

  predicate ValidStamp(t: Stamp) {
    ValidDate(t.date) && 0 <= t.hour < 24 && 0 <= t.minute < 60 && 0 <= t.second <= 60
    && 0 <= t.nanos < 1000000000
  }

  /** `before(time)`: `shift(time, -seconds)` is the host clock taking the
      seconds field off; the date part follows, the clock time is kept, and
      the sub-second part is cut to whole microseconds. */
  function Before(d: Duration, t: Stamp, shift: (Stamp, int) -> Stamp): (r: Stamp)
    requires ValidStamp(shift(t, -d.seconds))
    ensures ValidStamp(r)
    ensures var s := shift(t, -d.seconds);
      && MonthNumber(YearMonth(r.date.year, r.date.month))
           == MonthNumber(YearMonth(s.date.year, s.date.month)) - d.months % 120
      && r.hour == s.hour && r.minute == s.minute && r.second == s.second
      && r.nanos <= s.nanos < r.nanos + 1000 && r.nanos % 1000 == 0
      && r.date == BeforeDate(d, s.date)
  {
    var s := shift(t, -d.seconds);
    Remainder(s.nanos, 1000);
    DivUnique((s.nanos / 1000) * 1000, 1000, s.nanos / 1000, 0);
    Stamp(BeforeDate(d, s.date), s.hour, s.minute, s.second, (s.nanos / 1000) * 1000)
  }

  /** `after(time)`: `shift(time, seconds)` is the host clock adding the
      seconds field; the date part follows and the clock time is kept. */
  function After(d: Duration, t: Stamp, shift: (Stamp, int) -> Stamp): (r: Stamp)
    requires ValidStamp(shift(t, d.seconds))
    ensures ValidStamp(r)
    ensures var s := shift(t, d.seconds);
      && MonthNumber(YearMonth(r.date.year, r.date.month))
           == MonthNumber(YearMonth(s.date.year, s.date.month)) + d.months % 120
      && r.hour == s.hour && r.minute == s.minute && r.second == s.second && r.nanos == s.nanos
      && r.date == AfterDate(d, s.date)
  {
    var s := shift(t, d.seconds);
    Stamp(AfterDate(d, s.date), s.hour, s.minute, s.second, s.nanos)
  }

  /** The right operand of `Time#+` and `Time#-`: a RelativeTime, or a
      number of seconds for the host's own operator. */
  datatype Operand = Relative(duration: Duration) | Seconds(count: int)

  /** `Time#+`: a RelativeTime operand is handed to `after`; anything else
      goes to the host operator, here the clock shift. */
  function TimePlus(t: Stamp, x: Operand, shift: (Stamp, int) -> Stamp): (r: Stamp)
    requires x.Relative? ==> ValidStamp(shift(t, x.duration.seconds))
    ensures x.Relative? ==> r == After(x.duration, t, shift)
    ensures x.Seconds? ==> r == shift(t, x.count)
  {
    match x
    case Relative(d) => After(d, t, shift)
    case Seconds(n) => shift(t, n)
  }

  /** `Time#-`: a RelativeTime operand is handed to `before`; anything else
      goes to the host operator. */
  function TimeMinus(t: Stamp, x: Operand, shift: (Stamp, int) -> Stamp): (r: Stamp)
    requires x.Relative? ==> ValidStamp(shift(t, -x.duration.seconds))
    ensures x.Relative? ==> r == Before(x.duration, t, shift)
    ensures x.Seconds? ==> r == shift(t, -x.count)
  {
    match x
    case Relative(d) => Before(d, t, shift)
    case Seconds(n) => shift(t, -n)
  }

  /** For a duration without seconds and a clock shift that leaves a stamp
      alone when shifting by zero, `(t + d) - d` gives `t` back on a day
      every month has, up to the microsecond cut of `before`. */
  lemma PlusThenMinusRelative(d: Duration, t: Stamp, shift: (Stamp, int) -> Stamp)
    requires d.seconds == 0 && ValidStamp(t) && t.date.day <= 28 && t.nanos % 1000 == 0
    requires shift(t, 0) == t
    requires shift(TimePlus(t, Relative(d), shift), 0) == TimePlus(t, Relative(d), shift)
    ensures TimeMinus(TimePlus(t, Relative(d), shift), Relative(d), shift) == t
  {
    var a := TimePlus(t, Relative(d), shift);
    assert a.date == AfterDate(d, t.date);
    BeforeUndoesAfter(d, t.date);
  }
}

=== FILE: conversions.dfy ===
/** Crossing between the seconds domain and the months domain: the three
    normalization profiles, `normalize`, `denormalize`, `to_unit_part`,
    `to_unit` and `average!`. */
module Conversions {
  import opened Results
  import opened Units
  import opened Durations
  import opened Counts
  import opened Arith

  datatype Profile = Standard | Minimum | Maximum

  /** Seconds one month stands for under a profile: 30, 28 or 31 days. */
  function MonthSeconds(p: Profile): int {
    match p
    case Standard => 2592000
    case Minimum => 2419200
    case Maximum => 2678400
  }

  /** Seconds one year stands for under a profile: 365, 365 or 366 days. */
  function YearSeconds(p: Profile): int {
    match p
    case Standard => 31536000
    case Minimum => 31536000
    case Maximum => 31622400
  }

  /** `NORMALIZATION_METHODS.fetch(method)`: an unknown profile name raises KeyError. */
  function ProfileNamed(name: string): (r: Result<Profile>)
    ensures r.Ok? <==> name in {"standard", "minimum", "maximum"}
    ensures r.Err? ==> r.error == KeyError
    ensures r.Ok? ==> r.value == (if name == "standard" then Standard
                                 else if name == "minimum" then Minimum else Maximum)
  {
    if name == "standard" then Ok(Standard)
    else if name == "minimum" then Ok(Minimum)
    else if name == "maximum" then Ok(Maximum)
    else Err(KeyError)
  }

  /** One row of a profile: a months-domain unit and the seconds it stands for. */
  datatype Entry = Entry(unit: Unit, seconds: int)

  /** A profile's rows in the order `reverse_each` visits them: years, then months. */
  function LargestFirst(monthSeconds: int, yearSeconds: int): seq<Entry> {
    [Entry(Year, yearSeconds), Entry(Month, monthSeconds)]
  }

  /** The `[converted, remainder]` pair a `reduce` carries from row to row. */
  datatype Acc = Acc(converted: Duration, remainder: Duration)

  /** One row of `normalize`: the whole units of the row's kind still present
      in the remainder's months are credited as seconds and removed from the
      remainder. */
  function NormalizeStep(acc: Acc, e: Entry): Acc {
    var part := InUnit(acc.remainder, e.unit);
    Acc(Add(acc.converted, Single(part * e.seconds, Second)), Sub(acc.remainder, Single(part, e.unit)))
  }

  /** The `reduce` of `normalize` over a profile's rows. */
  function NormalizeFold(rows: seq<Entry>, acc: Acc): Acc
    decreases |rows|
  {
    if |rows| == 0 then acc else NormalizeFold(rows[1..], NormalizeStep(acc, rows[0]))
  }

  /** The year row moves whole years of months into seconds and leaves the
      months below a year (0..11, since division rounds down). */
  lemma NormalizeYearRow(d: Duration, yearSeconds: int)
    ensures NormalizeStep(Acc(Zero, d), Entry(Year, yearSeconds))
         == Acc(Duration((d.months / 12) * yearSeconds, 0), Duration(d.seconds, d.months % 12))
  {
    var years := InUnit(d, Year);
    assert years == d.months / 12;
    var x := years * yearSeconds;
    assert Single(x, Second) == Duration(x, 0);
    assert Single(years, Year) == Duration(0, 12 * years);
  }

  /** The month row moves every remaining month into seconds. */
  lemma NormalizeMonthRow(converted: Duration, remainder: Duration, monthSeconds: int)
    ensures NormalizeStep(Acc(converted, remainder), Entry(Month, monthSeconds))
         == Acc(Duration(converted.seconds + remainder.months * monthSeconds, converted.months),
                Duration(remainder.seconds, 0))
  {
    var months := InUnit(remainder, Month);
    assert months == remainder.months;
    var x := months * monthSeconds;
    assert Single(x, Second) == Duration(x, 0);
    assert Single(months, Month) == Duration(0, months);
  }

  /** `normalize` with explicit seconds-per-month and seconds-per-year: the
      fold over the two rows followed by `normalized + remainder`. */
  function NormalizeBy(d: Duration, monthSeconds: int, yearSeconds: int): Duration {
    var acc := NormalizeFold(LargestFirst(monthSeconds, yearSeconds), Acc(Zero, d));
    Add(acc.converted, acc.remainder)
  }

  /** All months become seconds: whole years at the year rate and the
      leftover months (always 0..11) at the month rate. */
  lemma NormalizeByClosedForm(d: Duration, monthSeconds: int, yearSeconds: int)
    ensures NormalizeBy(d, monthSeconds, yearSeconds)
         == Duration(d.seconds + (d.months / 12) * yearSeconds + (d.months % 12) * monthSeconds, 0)
  {
    var rows := LargestFirst(monthSeconds, yearSeconds);
    NormalizeYearRow(d, yearSeconds);
    var a1 := NormalizeStep(Acc(Zero, d), rows[0]);
    NormalizeMonthRow(a1.converted, a1.remainder, monthSeconds);
    var a2 := NormalizeStep(a1, rows[1]);
    assert rows[1..][1..] == [];
    assert NormalizeFold(rows, Acc(Zero, d)) == NormalizeFold(rows[1..], a1)
        == NormalizeFold(rows[1..][1..], a2) == a2;
  }

  /** `normalize(method: p)`. */
  function Normalize(d: Duration, p: Profile): (r: Duration)
    ensures r.months == 0
  {
    NormalizeByClosedForm(d, MonthSeconds(p), YearSeconds(p));
    NormalizeBy(d, MonthSeconds(p), YearSeconds(p))
  }

  /** `normalize` under each profile: whole years at the profile's year
      length, leftover months at its month length. */
  lemma NormalizeClosedForm(d: Duration, p: Profile)
    ensures p == Standard ==> Normalize(d, p).seconds == d.seconds + (d.months / 12) * 31536000 + (d.months % 12) * 2592000
    ensures p == Minimum ==> Normalize(d, p).seconds == d.seconds + (d.months / 12) * 31536000 + (d.months % 12) * 2419200
    ensures p == Maximum ==> Normalize(d, p).seconds == d.seconds + (d.months / 12) * 31622400 + (d.months % 12) * 2678400
  {
    NormalizeByClosedForm(d, MonthSeconds(p), YearSeconds(p));
  }

  /** One row of `denormalize`: as many of the row's units as the
      remainder's seconds hold (rounded down) are added to the months, and
      their seconds are removed from the remainder. */
  function DenormalizeStep(acc: Acc, e: Entry): Acc
    requires e.seconds > 0
  {
    var n := acc.remainder.seconds / e.seconds;
    Acc(Add(acc.converted, Single(n, e.unit)), Sub(acc.remainder, Single(n * e.seconds, Second)))
  }

  /** The `reduce` of `denormalize` over a profile's rows. */
  function DenormalizeFold(rows: seq<Entry>, acc: Acc): Acc
    requires forall i :: 0 <= i < |rows| ==> rows[i].seconds > 0
    decreases |rows|
  {
    if |rows| == 0 then acc else DenormalizeFold(rows[1..], DenormalizeStep(acc, rows[0]))
  }

  /** The year row turns whole profile-years of seconds into months and
      leaves the seconds below a year. */
  lemma DenormalizeYearRow(d: Duration, yearSeconds: int)
    requires yearSeconds > 0
    ensures DenormalizeStep(Acc(Zero, d), Entry(Year, yearSeconds))
         == Acc(Duration(0, 12 * (d.seconds / yearSeconds)),
                Duration(d.seconds % yearSeconds, d.months))
  {
    var s := d.seconds;
    var years := s / yearSeconds;
    assert s == years * yearSeconds + s % yearSeconds;
    assert Single(years, Year) == Duration(0, 12 * years);
    assert Single(years * yearSeconds, Second) == Duration(years * yearSeconds, 0);
  }

  /** The month row turns whole profile-months of the remaining seconds into months. */
  lemma DenormalizeMonthRow(converted: Duration, remainder: Duration, monthSeconds: int)
    requires monthSeconds > 0
    ensures DenormalizeStep(Acc(converted, remainder), Entry(Month, monthSeconds))
         == Acc(Duration(converted.seconds, converted.months + remainder.seconds / monthSeconds),
                Duration(remainder.seconds % monthSeconds, remainder.months))
  {
    var s := remainder.seconds;
    var months := s / monthSeconds;
    assert s == months * monthSeconds + s % monthSeconds;
    assert Single(months, Month) == Duration(0, months);
    assert Single(months * monthSeconds, Second) == Duration(months * monthSeconds, 0);
  }

  /** `denormalize` with explicit seconds-per-month and seconds-per-year. */
  function DenormalizeBy(d: Duration, monthSeconds: int, yearSeconds: int): Duration
    requires monthSeconds > 0 && yearSeconds > 0
  {
    var acc := DenormalizeFold(LargestFirst(monthSeconds, yearSeconds), Acc(Zero, d));
    Add(acc.converted, acc.remainder)
  }

  /** Seconds become months as far as they go, whole years first and then
      whole months; what is left of the seconds is less than one month. */
  lemma DenormalizeByClosedForm(d: Duration, monthSeconds: int, yearSeconds: int)
    requires monthSeconds > 0 && yearSeconds > 0
    ensures DenormalizeBy(d, monthSeconds, yearSeconds)
         == Duration((d.seconds % yearSeconds) % monthSeconds,
                     d.months + 12 * (d.seconds / yearSeconds) + (d.seconds % yearSeconds) / monthSeconds)
  {
    var rows := LargestFirst(monthSeconds, yearSeconds);
    DenormalizeYearRow(d, yearSeconds);
    var a1 := DenormalizeStep(Acc(Zero, d), rows[0]);
    DenormalizeMonthRow(a1.converted, a1.remainder, monthSeconds);
    var a2 := DenormalizeStep(a1, rows[1]);
    assert rows[1..][1..] == [];
    assert DenormalizeFold(rows, Acc(Zero, d)) == DenormalizeFold(rows[1..], a1)
        == DenormalizeFold(rows[1..][1..], a2) == a2;
  }

  /** `denormalize(method: p)`. */
  function Denormalize(d: Duration, p: Profile): (r: Duration)
    ensures 0 <= r.seconds < MonthSeconds(p)
  {
    DenormalizeByClosedForm(d, MonthSeconds(p), YearSeconds(p));
    DenormalizeBy(d, MonthSeconds(p), YearSeconds(p))
  }

  /** `denormalize` under each profile: whole profile-years of seconds
      first, then whole profile-months of what is left. */
  lemma DenormalizeClosedForm(d: Duration, p: Profile)
    ensures p == Standard ==> Denormalize(d, p) == Duration((d.seconds % 31536000) % 2592000,
                                d.months + 12 * (d.seconds / 31536000) + (d.seconds % 31536000) / 2592000)
    ensures p == Minimum ==> Denormalize(d, p) == Duration((d.seconds % 31536000) % 2419200,
                               d.months + 12 * (d.seconds / 31536000) + (d.seconds % 31536000) / 2419200)
    ensures p == Maximum ==> Denormalize(d, p) == Duration((d.seconds % 31622400) % 2678400,
                               d.months + 12 * (d.seconds / 31622400) + (d.seconds % 31622400) / 2678400)
  {
    DenormalizeByClosedForm(d, MonthSeconds(p), YearSeconds(p));
  }

  /** `to_unit_part`: whole `u`s in the field of `u`'s own domain, with no
      cross-domain approximation; an unknown name raises ArgumentError. It
      computes the same number as the generated `in_<plural>` helper. */
  function ToUnitPart(d: Duration, name: string): (r: Result<int>)
    ensures r.Err? <==> Resolve(name).Err?
    ensures r.Err? ==> r.error == ArgumentError
    ensures r.Ok? ==> r.value == InUnit(d, Resolve(name).value)
  {
    var u :- Resolve(name);
    Ok(InUnit(d, u))
  }

  /** `to_unit_part` rounds down: the result is the largest count of the
      unit that fits into the field of the unit's own domain. */
  lemma ToUnitPartRoundsDown(d: Duration, name: string)
    requires Resolve(name).Ok?
    ensures var u := Resolve(name).value; var n := ToUnitPart(d, name).value;
            n * Factor(u) <= FieldFor(d, u) < (n + 1) * Factor(u)
  {
    InUnitRoundsDown(d, Resolve(name).value);
  }

  /** `to_unit` for a resolved unit: a seconds-domain unit divides the
      standard-normalized seconds, a months-domain unit divides the
      standard-denormalized months. */
  function ToUnit(d: Duration, u: Unit): int {
    if DomainOf(u) == SecondsDomain then Normalize(d, Standard).seconds / Factor(u)
    else Denormalize(d, Standard).months / Factor(u)
  }

  /** `to_unit` rounds down: the result is the largest count of `u`s that
      fits into the standard-normalized seconds (seconds-domain units) or
      the standard-denormalized months (months-domain units). */
  lemma ToUnitRoundsDown(d: Duration, u: Unit)
    ensures DomainOf(u) == SecondsDomain ==>
              ToUnit(d, u) * Factor(u) <= Normalize(d, Standard).seconds < (ToUnit(d, u) + 1) * Factor(u)
    ensures DomainOf(u) == MonthsDomain ==>
              ToUnit(d, u) * Factor(u) <= Denormalize(d, Standard).months < (ToUnit(d, u) + 1) * Factor(u)
  {
    var x := if DomainOf(u) == SecondsDomain then Normalize(d, Standard).seconds else Denormalize(d, Standard).months;
    Remainder(x, Factor(u));
    assert (x / Factor(u) + 1) * Factor(u) == (x / Factor(u)) * Factor(u) + Factor(u);
  }

  /** `to_unit(name)`: an unknown name raises ArgumentError. */
  function ToUnitNamed(d: Duration, name: string): (r: Result<int>)
    ensures r.Err? <==> Resolve(name).Err?
    ensures r.Err? ==> r.error == ArgumentError
    ensures r.Ok? ==> r.value == ToUnit(d, Resolve(name).value)
  {
    var u :- Resolve(name);
    Ok(ToUnit(d, u))
  }

  /** A value with no months is left unchanged by `normalize`. */
  lemma NormalizeKeepsSeconds(d: Duration, p: Profile)
    requires d.months == 0
    ensures Normalize(d, p) == d
  {
    NormalizeClosedForm(d, p);
  }

  /** Seconds below one month are left where they are by `denormalize`. */
  lemma DenormalizeByKeepsSmall(e: Duration, monthSeconds: int, yearSeconds: int)
    requires 0 < monthSeconds <= yearSeconds
    requires 0 <= e.seconds < monthSeconds
    ensures DenormalizeBy(e, monthSeconds, yearSeconds) == e
  {
    var s := e.seconds;
    DivUnique(s, yearSeconds, 0, s);
    DivUnique(s, monthSeconds, 0, s);
    assert (s % yearSeconds) % monthSeconds == s && (s % yearSeconds) / monthSeconds == 0;
    DenormalizeByClosedForm(e, monthSeconds, yearSeconds);
  }

  /** A value already reduced by `denormalize` is left unchanged by it, so
      `denormalize` is idempotent. */
  lemma DenormalizeIdempotent(d: Duration, p: Profile)
    ensures Denormalize(Denormalize(d, p), p) == Denormalize(d, p)
  {
    var e := Denormalize(d, p);
    DenormalizeByKeepsSmall(e, MonthSeconds(p), YearSeconds(p));
  }

  /** `normalize` is idempotent. */
  lemma NormalizeIdempotent(d: Duration, p: Profile)
    ensures Normalize(Normalize(d, p), p) == Normalize(d, p)
  {
    NormalizeKeepsSeconds(Normalize(d, p), p);
  }

  /** Ruby's division rounds down, so a negative month count borrows a whole
      year: minus `k` months (`k` from 1 to 12) normalize to one year less
      `12 - k` months; minus one month is minus 35 days under the standard
      profile, not minus 30. */
  lemma NormalizeNegativeMonths(k: int)
    requires 1 <= k <= 12
    ensures Normalize(Duration(0, -k), Standard) == Duration((12 - k) * 2592000 - 31536000, 0)
  {
    NormalizeClosedForm(Duration(0, -k), Standard);
    DivUnique(-k, 12, -1, 12 - k);
  }

  /** Less than a year of positive months normalizes at the month rate alone. */
  lemma NormalizePositiveMonths(k: int)
    requires 0 <= k < 12
    ensures Normalize(Duration(0, k), Standard) == Duration(k * 2592000, 0)
  {
    NormalizeClosedForm(Duration(0, k), Standard);
    DivUnique(k, 12, 0, k);
  }

  /** Every seconds-domain unit round-trips through itself. */
  lemma SecondsUnitRoundTrip(n: int, u: Unit)
    requires DomainOf(u) == SecondsDomain
    ensures ToUnit(Single(n, u), u) == n
  {
    var d := Single(n, u);
    MulDiv(n, Factor(u));
    NormalizeKeepsSeconds(d, Standard);
  }

  /** Every months-domain unit round-trips through itself. */
  lemma MonthsUnitRoundTrip(n: int, u: Unit)
    requires DomainOf(u) == MonthsDomain
    ensures ToUnit(Single(n, u), u) == n
  {
    var d := Single(n, u);
    MulDiv(n, Factor(u));
    DenormalizeByKeepsSmall(d, MonthSeconds(Standard), YearSeconds(Standard));
  }

  /** Every unit round-trips through itself: `new(n, u).to_unit(u) == n`. */
  lemma ToUnitOfSingle(n: int, u: Unit)
    ensures ToUnit(Single(n, u), u) == n
  {
    if DomainOf(u) == SecondsDomain {
      SecondsUnitRoundTrip(n, u);
    } else {
      MonthsUnitRoundTrip(n, u);
    }
  }

  /** A value that lives entirely in `u`'s domain is divided as is by
      `to_unit`: no approximation between the domains takes place. */
  lemma ToUnitOfPure(d: Duration, u: Unit)
    requires Pure(d, DomainOf(u))
    ensures ToUnit(d, u) == FieldFor(d, u) / Factor(u)
  {
    if DomainOf(u) == SecondsDomain {
      NormalizeKeepsSeconds(d, Standard);
    } else {
      DenormalizeByKeepsSmall(d, MonthSeconds(Standard), YearSeconds(Standard));
    }
  }

  /** The same round trip through the public names: the count-form
      constructor with the singular name, read back with either spelling. */
  lemma ToUnitNamedRoundTrip(n: int, u: Unit)
    ensures ToUnitNamed(NewFromCount(n, Singular(u)), Plural(u)) == Ok(n)
    ensures ToUnitNamed(NewFromCount(n, Singular(u)), Singular(u)) == Ok(n)
  {
    ResolveBothSpellings(u);
    NewFromCountIsSingle(n, u);
    ToUnitOfSingle(n, u);
  }

  /** The two tables of average month and year lengths: lib/timerizer.rb's,
      and relative_time.rb's, which replaces it when loaded later. */
  datatype Averages = Averages(month: int, year: int)

  const TimerizerAverages := Averages(2628000, 31540000)
  const RelativeTimeAverages := Averages(2629746, 31556952)

  /** `average!`: the whole years and the leftover months of the months
      field are credited as seconds at the average rates and the months
      field is cleared. */
  function Average(d: Duration, a: Averages): (r: Duration)
    ensures r.months == 0
  {
    var years := InUnit(d, Year);
    var months := InUnit(d, Month) - InUnit(Single(years, Year), Month);
    Duration(d.seconds + (a.month * months + a.year * years), 0)
  }

  /** `average!` is `normalize` with the average lengths in place of a
      profile's month and year. */
  lemma AverageIsNormalize(d: Duration, a: Averages)
    ensures Average(d, a) == NormalizeBy(d, a.month, a.year)
  {
    NormalizeByClosedForm(d, a.month, a.year);
    var years := d.months / 12;
    var months := d.months % 12;
    assert InUnit(d, Year) == years;
    assert InUnit(Single(years, Year), Month) == 12 * years;
    assert InUnit(d, Month) - 12 * years == months;
    assert a.month * months == months * a.month;
    assert a.year * years == years * a.year;
  }
}

=== FILE: counts.dfy ===
/** The per-unit helpers that relative_time.rb generates for every unit:
    `in_<plural>` (whole units in the unit's own base field) and `<plural>`
    (that count minus what the next larger unit already accounts for). One
    generic pair of functions over the unit enum replaces the generated code. */
module Counts {
  import opened Results
  import opened Units
  import opened Durations
  import opened Arith

  /** `in_<plural>`: whole `u`s in the base field of `u`'s domain, rounded down. */
  function InUnit(d: Duration, u: Unit): int {
    FieldFor(d, u) / Factor(u)
  }

  /** `in_<plural>` rounds down: it is the largest count of `u`s that fits
      into the field of `u`'s own domain. */
  lemma InUnitRoundsDown(d: Duration, u: Unit)
    ensures InUnit(d, u) * Factor(u) <= FieldFor(d, u) < (InUnit(d, u) + 1) * Factor(u)
  {
    var x := FieldFor(d, u);
    Remainder(x, Factor(u));
    assert (x / Factor(u) + 1) * Factor(u) == (x / Factor(u)) * Factor(u) + Factor(u);
  }

  /** `<plural>`: `in_<plural>` minus the `u`s contained in the whole number of
      superior units, where the superior units are rebuilt with the integer
      sugar; the largest unit has no superior. */
  function Count(d: Duration, u: Unit): int {
    match Superior(u)
    case None => InUnit(d, u)
    case Some(v) => InUnit(d, u) - InUnit(Single(InUnit(d, v), v), u)
  }

  /** How many `u`s make up the next larger unit of the same domain. */
  function Radix(u: Unit): (k: int)
    requires u !in {Week, Millennium}
    ensures Superior(u).Some? && DomainOf(Superior(u).value) == DomainOf(u)
    ensures Factor(Superior(u).value) == k * Factor(u)
  {
    match u
    case Second => 60
    case Minute => 60
    case Hour => 24
    case Day => 7
    case Month => 12
    case Year => 10
    case Decade => 10
    case Century => 10
  }

  /** Below a larger unit of the same domain, the count is one digit of the
      base field written in mixed radix. */
  lemma CountIsDigit(d: Duration, u: Unit)
    requires u !in {Week, Millennium}
    ensures Count(d, u) == InUnit(d, u) % Radix(u)
    ensures 0 <= Count(d, u) < Radix(u)
  {
    CountBelow(d, u, Superior(u).value, Radix(u));
  }

  /** The digit step for a unit `u` whose superior `v` holds `k` of it. */
  lemma CountBelow(d: Duration, u: Unit, v: Unit, k: int)
    requires k > 0 && Superior(u) == Some(v) && DomainOf(v) == DomainOf(u)
    requires Factor(v) == k * Factor(u)
    ensures Count(d, u) == InUnit(d, u) % k
    ensures 0 <= Count(d, u) < k
  {
    var x := FieldFor(d, u);
    var f := Factor(u);
    var q := InUnit(d, v);
    assert q == x / (f * k);
    assert FieldFor(Single(q, v), u) == q * (f * k);
    DigitOf(x, f, k);
  }

  /** Weeks are the largest seconds-domain unit: the superior unit is the
      month, whose rebuilt value holds no seconds, so nothing is subtracted. */
  lemma CountWeekIsWhole(d: Duration)
    ensures Count(d, Week) == InUnit(d, Week)
    ensures Count(d, Millennium) == InUnit(d, Millennium)
  {
    assert Superior(Week) == Some(Month);
    assert Single(InUnit(d, Month), Month).seconds == 0;
  }

  /** The seconds-domain counts rebuild the seconds field exactly. */
  lemma SecondsFromCounts(d: Duration)
    ensures d.seconds == Count(d, Second) + 60 * Count(d, Minute) + 3600 * Count(d, Hour)
                         + 86400 * Count(d, Day) + 604800 * Count(d, Week)
  {
    CountIsDigit(d, Second);
    CountIsDigit(d, Minute);
    CountIsDigit(d, Hour);
    CountIsDigit(d, Day);
    CountWeekIsWhole(d);
    SecondsDigits(d.seconds, Count(d, Second), Count(d, Minute), Count(d, Hour), Count(d, Day), Count(d, Week));
  }

  /** The months-domain counts rebuild the months field exactly. */
  lemma MonthsFromCounts(d: Duration)
    ensures d.months == Count(d, Month) + 12 * Count(d, Year) + 120 * Count(d, Decade)
                        + 1200 * Count(d, Century) + 12000 * Count(d, Millennium)
  {
    CountIsDigit(d, Month);
    CountIsDigit(d, Year);
    CountIsDigit(d, Decade);
    CountIsDigit(d, Century);
    CountWeekIsWhole(d);
    MonthDigits(d.months, Count(d, Month), Count(d, Year), Count(d, Decade), Count(d, Century), Count(d, Millennium));
  }

  /** The `months` and `years` helpers that `before`/`after` use together
      cover the months field modulo 120: decades and larger are dropped. */
  lemma YearsAndMonthsModulo120(d: Duration)
    ensures 0 <= Count(d, Month) < 12 && 0 <= Count(d, Year) < 10
    ensures 12 * Count(d, Year) + Count(d, Month) == d.months % 120
  {
    CountIsDigit(d, Month);
    CountIsDigit(d, Year);
    var m := d.months;
    DivDiv(m, 12, 10);
    assert m == 120 * (m / 120) + 12 * Count(d, Year) + Count(d, Month);
  }
}

=== FILE: decomposition.dfy ===
/** `to_units`: a duration broken into the caller's units, largest first,
    each unit taking what `to_unit` gives for what the larger units left. The
    result is the Ruby hash the method returns, as a list of name/value pairs
    in insertion order. */
module Decomposition {
  import opened Results
  import opened Units
  import opened Durations
  import opened Conversions
  import opened Arith

  /** The parts the fold produced, one per unit, and what is left over. */
  datatype Split = Split(parts: seq<int>, rest: Duration)

  /** The `reduce` of `to_units` over units already in their final order:
      each unit's part is `to_unit` of the remainder, and the value
      `part.send(unit)` builds is taken off the remainder. */
  function Decompose(d: Duration, us: seq<Unit>): (r: Split)
    ensures |r.parts| == |us|
  {
    DecomposeBy(ToUnit, d, us)
  }

  /** The same fold with the per-unit count as a parameter. */
  function DecomposeBy(count: (Duration, Unit) -> int, d: Duration, us: seq<Unit>): (r: Split)
    ensures |r.parts| == |us|
    decreases |us|
  {
    if |us| == 0 then Split([], d)
    else
      var part := count(d, us[0]);
      var tail := DecomposeBy(count, Sub(d, Single(part, us[0])), us[1..]);
      Split([part] + tail.parts, tail.rest)
  }

  /** The sum of `parts[i]` units of `us[i]`. */
  function Recompose(parts: seq<int>, us: seq<Unit>): Duration
    requires |parts| == |us|
    decreases |us|
  {
    if |us| == 0 then Zero else Add(Single(parts[0], us[0]), Recompose(parts[1..], us[1..]))
  }

  /** Nothing is lost or invented: the parts, put back together, plus the
      remainder give the original duration, whatever the units. */
  lemma {:induction false} DecomposeConserves(d: Duration, us: seq<Unit>)
    ensures var r := Decompose(d, us); Add(Recompose(r.parts, us), r.rest) == d
    decreases |us|
  {
    if |us| > 0 {
      var part := ToUnit(d, us[0]);
      var next := Sub(d, Single(part, us[0]));
      DecomposeConserves(next, us[1..]);
      var r := Decompose(d, us);
      assert r.parts[1..] == Decompose(next, us[1..]).parts;
    }
  }

  predicate AllIn(us: seq<Unit>, dom: Domain) {
    forall i :: 0 <= i < |us| ==> DomainOf(us[i]) == dom
  }

  /** One step of the fold on a duration that lives in `u`'s domain, for a
      part that is the floored quotient of the field: the remainder keeps the
      floored remainder, in the same domain. */
  lemma FloorStep(d: Duration, u: Unit, part: int)
    requires Pure(d, DomainOf(u)) && part == Field(d, DomainOf(u)) / Factor(u)
    ensures var x := Field(d, DomainOf(u));
            var next := Sub(d, Single(part, u));
      && Pure(next, DomainOf(u))
      && Field(next, DomainOf(u)) == x % Factor(u)
      && (x >= 0 ==> 0 <= part && part * Factor(u) <= x)
  {
    TakeOff(d, u, part);
    Remainder(Field(d, DomainOf(u)), Factor(u));
  }

  /** Taking `n` units off a duration of the unit's domain stays in that
      domain and lowers its field by `n` times the unit. */
  lemma TakeOff(d: Duration, u: Unit, n: int)
    requires Pure(d, DomainOf(u))
    ensures var next := Sub(d, Single(n, u));
      && Pure(next, DomainOf(u))
      && Field(next, DomainOf(u)) == Field(d, DomainOf(u)) - n * Factor(u)
  {
  }

  /** The first step of the fold, spelled out. */
  lemma DecomposeFirst(d: Duration, us: seq<Unit>)
    requires |us| > 0
    ensures var part := ToUnit(d, us[0]);
            var t := Decompose(Sub(d, Single(part, us[0])), us[1..]);
            Decompose(d, us) == Split([part] + t.parts, t.rest)
  {
  }

  /** Every part after the first is non-negative and worth less than one of
      the unit before it. */
  predicate Digits(parts: seq<int>, us: seq<Unit>)
    requires |parts| == |us|
  {
    forall i :: 1 <= i < |us| ==> 0 <= parts[i] && parts[i] * Factor(us[i]) < Factor(us[i - 1])
  }

  lemma DigitsCons(p: int, u: Unit, parts: seq<int>, us: seq<Unit>)
    requires |parts| == |us| > 0 && Digits(parts, us)
    requires 0 <= parts[0] && parts[0] * Factor(us[0]) < Factor(u)
    ensures Digits([p] + parts, [u] + us)
  {
    var ps, vs := [p] + parts, [u] + us;
    forall i | 1 <= i < |vs| ensures 0 <= ps[i] && ps[i] * Factor(vs[i]) < Factor(vs[i - 1]) {
      if i > 1 {
        var j := i - 1;
        assert 0 <= parts[j] && parts[j] * Factor(us[j]) < Factor(us[j - 1]);
        assert ps[i] == parts[j] && vs[i] == us[j] && vs[i - 1] == us[j - 1];
      }
    }
  }

  /** With a duration and units all in one domain, `to_units` writes the
      field in mixed radix: the first unit takes the whole (floored) count,
      every later part is non-negative and worth less than one of the unit
      before it, and the remainder is non-negative and less than the last
      unit. */
  lemma PureDecompose(d: Duration, us: seq<Unit>, dom: Domain)
    requires Pure(d, dom) && AllIn(us, dom) && |us| > 0
    ensures var r := Decompose(d, us);
      && Pure(r.rest, dom)
      && 0 <= Field(r.rest, dom) < Factor(us[|us| - 1])
      && r.parts[0] == Field(d, dom) / Factor(us[0])
      && Digits(r.parts, us)
  {
    forall e: Duration, u: Unit | Pure(e, DomainOf(u))
      ensures ToUnit(e, u) == Field(e, DomainOf(u)) / Factor(u)
    {
      ToUnitOfPure(e, u);
    }
    PureDecomposeBy(ToUnit, d, us, dom);
  }

  /** A count is floored when, on a duration of the unit's own domain, it is
      the floored quotient of the field. */
  ghost predicate Floored(count: (Duration, Unit) -> int) {
    forall e: Duration, u: Unit :: Pure(e, DomainOf(u)) ==> count(e, u) == Field(e, DomainOf(u)) / Factor(u)
  }

  /** PureDecompose for any floored count. */
  lemma {:induction false} PureDecomposeBy(count: (Duration, Unit) -> int, d: Duration, us: seq<Unit>, dom: Domain)
    requires Floored(count) && Pure(d, dom) && AllIn(us, dom) && |us| > 0
    ensures var r := DecomposeBy(count, d, us);
      && Pure(r.rest, dom)
      && 0 <= Field(r.rest, dom) < Factor(us[|us| - 1])
      && r.parts[0] == Field(d, dom) / Factor(us[0])
      && Digits(r.parts, us)
    decreases |us|
  {
    var part := count(d, us[0]);
    FloorStep(d, us[0], part);
    var next := Sub(d, Single(part, us[0]));
    if |us| > 1 {
      assert AllIn(us[1..], dom);
      PureDecomposeBy(count, next, us[1..], dom);
      DigitsStep(part, DecomposeBy(count, next, us[1..]).parts, us, Field(next, dom));
    }
  }

  /** A part below the remainder of the unit before it is a digit. */
  lemma DigitsStep(p: int, parts: seq<int>, us: seq<Unit>, y: int)
    requires |us| > 1 && |parts| == |us| - 1 && Digits(parts, us[1..])
    requires 0 <= y < Factor(us[0]) && parts[0] == y / Factor(us[1])
    ensures Digits([p] + parts, us)
  {
    Remainder(y, Factor(us[1]));
    assert us == [us[0]] + us[1..];
    DigitsCons(p, us[0], parts, us[1..]);
  }



  /** Putting the parts back together gives the duration less the
      remainder, which is less than one of the last unit. */
  lemma RecomposeBalance(d: Duration, us: seq<Unit>, dom: Domain)
    requires Pure(d, dom) && AllIn(us, dom) && |us| > 0
    ensures var back := Recompose(Decompose(d, us).parts, us);
      && Pure(back, dom)
      && 0 <= Field(d, dom) - Field(back, dom) < Factor(us[|us| - 1])
  {
    var r := Decompose(d, us);
    DecomposeConserves(d, us);
    PureDecompose(d, us, dom);
    Balance(d, Recompose(r.parts, us), r.rest, dom, Factor(us[|us| - 1]));
  }

  lemma Balance(d: Duration, back: Duration, rest: Duration, dom: Domain, f: int)
    requires Add(back, rest) == d && Pure(d, dom) && Pure(rest, dom) && 0 <= Field(rest, dom) < f
    ensures Pure(back, dom) && 0 <= Field(d, dom) - Field(back, dom) < f
  {
  }

  /** One entry of a Ruby hash keyed by name, in insertion order. */
  datatype Pair<V> = Pair(name: string, value: V)

  /** The keys of a hash, in insertion order. */
  function Keys<V>(h: seq<Pair<V>>): (ks: seq<string>)
    ensures |ks| == |h| && forall i :: 0 <= i < |h| ==> ks[i] == h[i].name
  {
    seq(|h|, i requires 0 <= i < |h| => h[i].name)
  }

  predicate DistinctKeys(h: seq<Pair<int>>) {
    forall i, j :: 0 <= i < j < |h| ==> h[i].name != h[j].name
  }

  /** Position of the entry with key `k`, if there is one. */
  function KeyIndex(h: seq<Pair<int>>, k: string): (r: Option<nat>)
    ensures r.Some? ==> r.value < |h| && h[r.value].name == k
    ensures r.None? ==> forall i :: 0 <= i < |h| ==> h[i].name != k
    decreases |h|
  {
    if |h| == 0 then None
    else if h[0].name == k then Some(0)
    else match KeyIndex(h[1..], k)
      case Some(i) => Some(i + 1)
      case None => None
  }

  /** `Hash#merge` of a single entry: an existing key keeps its position and
      takes the new value; a new key goes at the end. */
  function Put(h: seq<Pair<int>>, p: Pair<int>): (r: seq<Pair<int>>)
    ensures KeyIndex(h, p.name).Some? ==> r == h[KeyIndex(h, p.name).value := p]
    ensures KeyIndex(h, p.name).None? ==> r == h + [p]
    decreases |h|
  {
    if |h| == 0 then [p]
    else if h[0].name == p.name then [p] + h[1..]
    else
      var tail := Put(h[1..], p);
      assert h == [h[0]] + h[1..];
      [h[0]] + tail
  }

  /** The keys after a merge: the old ones in place, and the merged one at
      the end when it is new; distinct keys stay distinct. */
  lemma PutKeys(h: seq<Pair<int>>, p: Pair<int>)
    requires DistinctKeys(h)
    ensures DistinctKeys(Put(h, p))
    ensures forall k :: k in Keys(Put(h, p)) <==> k in Keys(h) || k == p.name
  {
    var r := Put(h, p);
    match KeyIndex(h, p.name)
    case Some(i) =>
      assert Keys(r) == Keys(h);
    case None =>
      assert Keys(r) == Keys(h) + [p.name];
  }

  /** Successive merges of `ps` into `acc`. */
  function MergeAll(acc: seq<Pair<int>>, ps: seq<Pair<int>>): (r: seq<Pair<int>>)
    requires DistinctKeys(acc)
    ensures DistinctKeys(r)
    ensures forall k :: k in Keys(r) <==> k in Keys(acc) || k in Keys(ps)
    decreases |ps|
  {
    if |ps| == 0 then acc
    else
      assert Keys(ps) == [ps[0].name] + Keys(ps[1..]);
      PutKeys(acc, ps[0]);
      MergeAll(Put(acc, ps[0]), ps[1..])
  }

  /** When no key repeats, merging appends every entry in order. */
  lemma {:induction false} MergeAllDistinct(acc: seq<Pair<int>>, ps: seq<Pair<int>>)
    requires DistinctKeys(acc) && DistinctKeys(acc + ps)
    ensures MergeAll(acc, ps) == acc + ps
    decreases |ps|
  {
    if |ps| > 0 {
      var all := acc + ps;
      var next := acc + [ps[0]];
      forall i | 0 <= i < |acc| ensures acc[i].name != ps[0].name {
        assert all[i] == acc[i] && all[|acc|] == ps[0];
      }
      assert Put(acc, ps[0]) == next;
      assert next == all[..|acc| + 1];
      assert all == next + ps[1..];
      MergeAllDistinct(next, ps[1..]);
    }
  }

  function UnitsOf(xs: seq<Named>): (us: seq<Unit>)
    ensures |us| == |xs| && forall i :: 0 <= i < |xs| ==> us[i] == xs[i].unit
  {
    seq(|xs|, i requires 0 <= i < |xs| => xs[i].unit)
  }

  /** Pairs each caller-spelled name with its part. */
  function Label(xs: seq<Named>, parts: seq<int>): (ps: seq<Pair<int>>)
    requires |parts| == |xs|
    ensures |ps| == |xs| && forall i :: 0 <= i < |xs| ==> ps[i] == Pair(xs[i].name, parts[i])
  {
    seq(|xs|, i requires 0 <= i < |xs| => Pair(xs[i].name, parts[i]))
  }

  /** The entries of `to_units` before they are merged: the names sorted
      largest unit first, each with its part of the decomposition. */
  function Entries(d: Duration, named: seq<Named>): (ps: seq<Pair<int>>)
  {
    var sorted := SortDescending(named);
    Label(sorted, Decompose(d, UnitsOf(sorted)).parts)
  }

  /** The names of `ResolveAll(names)`'s result, and what they resolve to. */
  predicate ResolvedFrom(named: seq<Named>, names: seq<string>) {
    |named| == |names| &&
    forall i :: 0 <= i < |names| ==> named[i].name == names[i] && Resolve(names[i]) == Ok(named[i].unit)
  }

  /** The entries carry exactly the caller's names, each resolving to the
      unit its part was computed for. */
  lemma EntriesNamed(d: Duration, named: seq<Named>, names: seq<string>)
    requires ResolvedFrom(named, names)
    ensures forall k :: k in Keys(Entries(d, named)) <==> k in names
    ensures forall i :: 0 <= i < |Entries(d, named)| ==>
              Resolve(Entries(d, named)[i].name) == Ok(SortDescending(named)[i].unit)
  {
    var sorted := SortDescending(named);
    SortedLabelNamed(named, Decompose(d, UnitsOf(sorted)).parts, names);
  }

  /** The same for any parts labelled with the sorted names. */
  lemma {:induction false} SortedLabelNamed(named: seq<Named>, parts: seq<int>, names: seq<string>)
    requires ResolvedFrom(named, names) && |parts| == |named|
    ensures forall k :: k in Keys(Label(SortDescending(named), parts)) <==> k in names
    ensures forall i :: 0 <= i < |named| ==>
              Resolve(Label(SortDescending(named), parts)[i].name) == Ok(SortDescending(named)[i].unit)
  {
    var sorted := SortDescending(named);
    SortKeepsMembers(named);
    var ps := Label(sorted, parts);
    forall k | k in Keys(ps) ensures k in names {
      var i :| 0 <= i < |ps| && Keys(ps)[i] == k;
      assert sorted[i] in sorted;
      var j :| 0 <= j < |named| && named[j] == sorted[i];
      assert names[j] == k;
    }
    forall k | k in names ensures k in Keys(ps) {
      var j :| 0 <= j < |names| && names[j] == k;
      assert named[j] in named;
      var i :| 0 <= i < |sorted| && sorted[i] == named[j];
      assert Keys(ps)[i] == k;
    }
    forall i | 0 <= i < |ps| ensures Resolve(ps[i].name) == Ok(sorted[i].unit) {
      assert sorted[i] in sorted;
      var j :| 0 <= j < |named| && named[j] == sorted[i];
    }
  }

  /** With distinct names, the entries have distinct keys and the merge
      keeps them as they are. */
  lemma EntriesDistinct(d: Duration, named: seq<Named>, names: seq<string>)
    requires ResolvedFrom(named, names)
    ensures DistinctNames(named) ==> MergeAll([], Entries(d, named)) == Entries(d, named)
  {
    if DistinctNames(named) {
      SortKeepsDistinct(named);
      assert [] + Entries(d, named) == Entries(d, named);
      MergeAllDistinct([], Entries(d, named));
    }
  }

  /** `to_units(*names)`: every name is resolved (an unknown one raises
      ArgumentError), the names are sorted largest unit first, the duration
      is decomposed over them, and the parts are merged into a hash keyed by
      the names as the caller spelled them. */
  function ToUnits(d: Duration, names: seq<string>): (r: Result<seq<Pair<int>>>)
    ensures r.Ok? <==> forall i :: 0 <= i < |names| ==> Resolve(names[i]).Ok?
    ensures r.Err? ==> r.error == ArgumentError
    ensures r.Ok? ==> DistinctKeys(r.value)
    ensures r.Ok? ==> forall k :: k in Keys(r.value) <==> k in names
    ensures r.Ok? && (forall i, j :: 0 <= i < j < |names| ==> names[i] != names[j]) ==>
              |r.value| == |names| &&
              forall i, j :: 0 <= i < j < |r.value| ==>
                Resolve(r.value[i].name).Ok? && Resolve(r.value[j].name).Ok? &&
                Index(Resolve(r.value[i].name).value) >= Index(Resolve(r.value[j].name).value)
  {
    var named :- ResolveAll(names);
    EntriesNamed(d, named, names);
    EntriesDistinct(d, named, names);
    Ok(MergeAll([], Entries(d, named)))
  }

  /** The duration a hash of named parts stands for: `parts[name]` units of
      each named unit, summed. */
  function Total(h: seq<Pair<int>>): Duration
    requires forall i :: 0 <= i < |h| ==> Resolve(h[i].name).Ok?
    decreases |h|
  {
    if |h| == 0 then Zero else Add(Single(h[0].value, Resolve(h[0].name).value), Total(h[1..]))
  }

  lemma {:induction false} TotalOfLabel(xs: seq<Named>, parts: seq<int>)
    requires |parts| == |xs|
    requires forall i :: 0 <= i < |xs| ==> Resolve(xs[i].name) == Ok(xs[i].unit)
    ensures Total(Label(xs, parts)) == Recompose(parts, UnitsOf(xs))
    decreases |xs|
  {
    if |xs| > 0 {
      assert Label(xs, parts)[1..] == Label(xs[1..], parts[1..]);
      assert UnitsOf(xs)[1..] == UnitsOf(xs[1..]);
      TotalOfLabel(xs[1..], parts[1..]);
    }
  }

  /** The smallest unit comes last after sorting, and sorting brings in no
      unit from outside the names' domain. */
  lemma {:induction false} SortedUnits(named: seq<Named>, dom: Domain)
    requires |named| > 0 && forall i :: 0 <= i < |named| ==> DomainOf(named[i].unit) == dom
    ensures AllIn(UnitsOf(SortDescending(named)), dom)
    ensures forall i :: 0 <= i < |named| ==>
              Index(named[i].unit) >= Index(SortDescending(named)[|named| - 1].unit)
    ensures forall i :: 0 <= i < |named| ==>
              Factor(SortDescending(named)[|named| - 1].unit) <= Factor(named[i].unit)
  {
    var sorted := SortDescending(named);
    SortKeepsMembers(named);
    forall i | 0 <= i < |sorted| ensures DomainOf(sorted[i].unit) == dom {
      assert sorted[i] in sorted;
      var j :| 0 <= j < |named| && named[j] == sorted[i];
    }
    forall i | 0 <= i < |named| ensures Index(named[i].unit) >= Index(sorted[|named| - 1].unit) {
      assert named[i] in named;
      var j :| 0 <= j < |sorted| && sorted[j] == named[i];
    }
    var last := sorted[|named| - 1].unit;
    assert DomainOf(last) == dom;
    forall i | 0 <= i < |named| ensures Factor(last) <= Factor(named[i].unit) {
      FactorMonotone(last, named[i].unit);
    }
  }

  /** With distinct names that all resolve, `to_units` returns the entries unmerged. */
  lemma ToUnitsIsEntries(d: Duration, names: seq<string>)
    requires forall i, j :: 0 <= i < j < |names| ==> names[i] != names[j]
    requires forall i :: 0 <= i < |names| ==> Resolve(names[i]).Ok?
    ensures ResolveAll(names).Ok?
    ensures ResolvedFrom(ResolveAll(names).value, names)
    ensures ToUnits(d, names) == Ok(Entries(d, ResolveAll(names).value))
  {
    var named := ResolveAll(names).value;
    assert DistinctNames(named);
    EntriesDistinct(d, named, names);
  }

  /** The entries stand for the parts of the decomposition over the sorted units. */
  lemma TotalOfEntries(d: Duration, named: seq<Named>)
    requires forall i :: 0 <= i < |named| ==> Resolve(named[i].name) == Ok(named[i].unit)
    ensures forall i :: 0 <= i < |Entries(d, named)| ==> Resolve(Entries(d, named)[i].name).Ok?
    ensures var us := UnitsOf(SortDescending(named));
            Total(Entries(d, named)) == Recompose(Decompose(d, us).parts, us)
  {
    var sorted := SortDescending(named);
    SortKeepsMembers(named);
    forall i | 0 <= i < |sorted| ensures Resolve(sorted[i].name) == Ok(sorted[i].unit) {
      assert sorted[i] in sorted;
    }
    var split := Decompose(d, UnitsOf(sorted));
    assert Entries(d, named) == Label(sorted, split.parts);
    TotalOfLabel(sorted, split.parts);
  }

  /** The entries for resolved names all in one domain, on a duration of
      that domain, add up to the duration less something smaller than the
      smallest unit. */
  lemma EntriesCover(d: Duration, named: seq<Named>, dom: Domain)
    requires |named| > 0 && Pure(d, dom)
    requires forall i :: 0 <= i < |named| ==> DomainOf(named[i].unit) == dom
    requires forall i :: 0 <= i < |named| ==> Resolve(named[i].name) == Ok(named[i].unit)
    ensures forall i :: 0 <= i < |Entries(d, named)| ==> Resolve(Entries(d, named)[i].name).Ok?
    ensures var back := Total(Entries(d, named));
      && Pure(back, dom)
      && 0 <= Field(d, dom) - Field(back, dom)
      && forall i :: 0 <= i < |named| ==> Field(d, dom) - Field(back, dom) < Factor(named[i].unit)
  {
    TotalOfEntries(d, named);
    SortedUnits(named, dom);
    var us := UnitsOf(SortDescending(named));
    RecomposeBalance(d, us, dom);
    assert us[|us| - 1] == SortDescending(named)[|named| - 1].unit;
  }

  /** For a duration and distinct names all in one domain, the hash
      `to_units` returns accounts for the duration up to less than one of
      the smallest requested unit, and never for more than the duration. */
  lemma ToUnitsCoversAllButLessThanSmallest(d: Duration, names: seq<string>, dom: Domain)
    requires |names| > 0 && forall i, j :: 0 <= i < j < |names| ==> names[i] != names[j]
    requires forall i :: 0 <= i < |names| ==> Resolve(names[i]).Ok? && DomainOf(Resolve(names[i]).value) == dom
    requires Pure(d, dom)
    ensures ToUnits(d, names).Ok?
    ensures forall i :: 0 <= i < |ToUnits(d, names).value| ==> Resolve(ToUnits(d, names).value[i].name).Ok?
    ensures var back := Total(ToUnits(d, names).value);
      && Pure(back, dom)
      && 0 <= Field(d, dom) - Field(back, dom)
      && forall i :: 0 <= i < |names| ==> Field(d, dom) - Field(back, dom) < Factor(Resolve(names[i]).value)
  {
    var named := ResolveAll(names).value;
    ToUnitsIsEntries(d, names);
    EntriesCoverByName(d, names, named, dom);
  }

  /** EntriesCover, with the bound stated for the names as the caller
      spelled them. */
  lemma EntriesCoverByName(d: Duration, names: seq<string>, named: seq<Named>, dom: Domain)
    requires |names| > 0 && ResolvedFrom(named, names) && Pure(d, dom)
    requires forall i :: 0 <= i < |names| ==> DomainOf(Resolve(names[i]).value) == dom
    ensures forall i :: 0 <= i < |Entries(d, named)| ==> Resolve(Entries(d, named)[i].name).Ok?
    ensures var back := Total(Entries(d, named));
      && Pure(back, dom)
      && 0 <= Field(d, dom) - Field(back, dom)
      && forall i :: 0 <= i < |names| ==> Field(d, dom) - Field(back, dom) < Factor(Resolve(names[i]).value)
  {
    EntriesCover(d, named, dom);
    CoverByName(names, named, Field(d, dom) - Field(Total(Entries(d, named)), dom));
  }

  /** A bound below every resolved unit, restated for the names as the
      caller spelled them. */
  lemma CoverByName(names: seq<string>, named: seq<Named>, gap: int)
    requires ResolvedFrom(named, names)
    requires forall i :: 0 <= i < |named| ==> gap < Factor(named[i].unit)
    ensures forall i :: 0 <= i < |names| ==> gap < Factor(Resolve(names[i]).value)
  {
    forall i | 0 <= i < |names| ensures gap < Factor(Resolve(names[i]).value) {
      assert gap < Factor(named[i].unit);
    }
  }

  /** Every entry a merge produces is one of the old entries or one of the
      merged ones: merging never invents a value. */
  lemma {:induction false} MergeAllFrom(acc: seq<Pair<int>>, ps: seq<Pair<int>>)
    requires DistinctKeys(acc)
    ensures forall q :: q in MergeAll(acc, ps) ==> q in acc || q in ps
    decreases |ps|
  {
    if |ps| > 0 {
      PutKeys(acc, ps[0]);
      var h := Put(acc, ps[0]);
      forall q | q in h ensures q in acc || q == ps[0] {
        var j :| 0 <= j < |h| && h[j] == q;
        if KeyIndex(acc, ps[0].name).None? && j == |acc| {
          assert q == ps[0];
        } else if KeyIndex(acc, ps[0].name).None? || j != KeyIndex(acc, ps[0].name).value {
          assert q == acc[j];
        }
      }
      MergeAllFrom(h, ps[1..]);
    }
  }

  /** The empty duration decomposes into zero of every unit. */
  lemma {:induction false} DecomposeZero(d: Duration, us: seq<Unit>)
    requires d.seconds == 0 && d.months == 0
    ensures forall i :: 0 <= i < |us| ==> Decompose(d, us).parts[i] == 0
    decreases |us|
  {
    if |us| > 0 {
      ZeroStep(d, us[0]);
      DecomposeFirst(d, us);
      DecomposeZero(d, us[1..]);
      ZerosCons(Decompose(d, us).parts, Decompose(d, us[1..]).parts);
    }
  }

  lemma ZerosCons(parts: seq<int>, tail: seq<int>)
    requires parts == [0] + tail && forall i :: 0 <= i < |tail| ==> tail[i] == 0
    ensures forall i :: 0 <= i < |parts| ==> parts[i] == 0
  {
  }

  /** `to_unit` of the empty duration is zero in every unit, and taking
      zero units off it leaves it empty. */
  lemma ZeroStep(d: Duration, u: Unit)
    requires d.seconds == 0 && d.months == 0
    ensures ToUnit(d, u) == 0
    ensures Sub(d, Single(0, u)) == d
  {
    ToUnitOfPure(d, u);
    ZeroQuotient(Factor(u));
  }

  /** Every part `to_units` reports for the empty duration is zero. */
  lemma ToUnitsOfZero(names: seq<string>)
    ensures ToUnits(Zero, names).Ok? ==> forall q :: q in ToUnits(Zero, names).value ==> q.value == 0
  {
    if ToUnits(Zero, names).Ok? {
      var named := ResolveAll(names).value;
      var sorted := SortDescending(named);
      var entries := Entries(Zero, named);
      DecomposeZero(Zero, UnitsOf(sorted));
      MergeAllFrom([], entries);
      forall q | q in entries ensures q.value == 0 {
        var j :| 0 <= j < |entries| && entries[j] == q;
      }
    }
  }
}

=== FILE: durations.dfy ===
/** The RelativeTime value: an exact count of seconds and an exact count of
    months, kept apart, with construction, field access, equality and
    component-wise arithmetic. */
module Durations {
  import opened Results
  import opened Units

  datatype Duration = Duration(seconds: int, months: int)

  const Zero := Duration(0, 0)

  /** A Ruby operand that may or may not be a RelativeTime. */
  datatype Value = Rel(duration: Duration) | Foreign

  /** The field of `d` that holds the base units of `dom`. */
  function Field(d: Duration, dom: Domain): int {
    if dom == SecondsDomain then d.seconds else d.months
  }

  /** `d` has nothing in the field other than `dom`'s. */
  predicate Pure(d: Duration, dom: Domain) {
    if dom == SecondsDomain then d.months == 0 else d.seconds == 0
  }

  /** Field of `d` that holds `u`'s domain. */
  function FieldFor(d: Duration, u: Unit): int {
    Field(d, DomainOf(u))
  }

  /** `RelativeTime.new(n, u)` for a known unit: `n * Factor(u)` goes into
      the field of `u`'s domain. The model also uses it for the integer sugar
      `n.send(name)` that `to_units`, `denormalize` and the count helpers call,
      for every spelling of the unit; the sugar itself only defines the
      singular names of its own table and their `s` forms. */
  function Single(n: int, u: Unit): (r: Duration)
    ensures Pure(r, DomainOf(u)) && FieldFor(r, u) == n * Factor(u)
  {
    if DomainOf(u) == SecondsDomain then Duration(n * Factor(u), 0)
    else Duration(0, n * Factor(u))
  }

  /** Count-form constructor `new(count, unit)`: the unit is looked up among
      the singular names only; an unknown unit leaves both fields zero. */
  function NewFromCount(count: int, name: string): (r: Duration)
    ensures forall u: Unit :: name == Singular(u) ==>
              FieldFor(r, u) == count * Factor(u) &&
              (if DomainOf(u) == SecondsDomain then r.months == 0 else r.seconds == 0)
    ensures (forall u: Unit :: name != Singular(u)) ==> r == Zero
  {
    match Find(name, AllUnits, Singular)
    case Some(u) =>
      assert forall v: Unit :: name == Singular(v) ==> v == u by {
        forall v: Unit | name == Singular(v) ensures v == u {
          if v != u { NamesAreDistinct(u, v); }
        }
      }
      Single(count, u)
    case None =>
      assert forall u: Unit :: name != Singular(u) by {
        forall u: Unit ensures name != Singular(u) { EveryUnitListed(u); }
      }
      Zero
  }

  /** The count form with a singular name builds exactly the integer sugar's value. */
  lemma NewFromCountIsSingle(count: int, u: Unit)
    ensures NewFromCount(count, Singular(u)) == Single(count, u)
  {
    EveryUnitListed(u);
    var f := Find(Singular(u), AllUnits, Singular);
    if f.value != u {
      NamesAreDistinct(f.value, u);
    }
  }

  /** Hash-form constructor `new(hash)`: only the `seconds` and `months` keys
      are read, a missing key counts as zero, every other key is ignored. */
  function NewFromHash(h: map<string, int>): (r: Duration)
    ensures forall k :: k in h && k != "seconds" && k != "months" ==>
              NewFromHash(h - {k}) == r
    ensures "seconds" !in h && "months" !in h ==> r == Zero
    ensures r.seconds == (if "seconds" in h then h["seconds"] else 0)
    ensures r.months == (if "months" in h then h["months"] else 0)
  {
    Duration(if "seconds" in h then h["seconds"] else 0,
             if "months" in h then h["months"] else 0)
  }

  /** `get`: the two base fields by name; any other key raises ArgumentError. */
  function Get(d: Duration, key: string): (r: Result<int>)
    ensures r.Ok? <==> key in {"seconds", "months"}
    ensures r.Err? ==> r.error == ArgumentError
    ensures key == "seconds" ==> r == Ok(d.seconds)
    ensures key == "months" ==> r == Ok(d.months)
  {
    if key == "seconds" then Ok(d.seconds)
    else if key == "months" then Ok(d.months)
    else Err(ArgumentError)
  }

  /** Reading both fields with `get` and feeding them to the hash-form
      constructor rebuilds the same value. */
  lemma GetThenNewFromHash(d: Duration)
    ensures NewFromHash(map["seconds" := Get(d, "seconds").value, "months" := Get(d, "months").value]) == d
  {
  }

  /** `==`: both base fields match; never equal to a non-RelativeTime. */
  function Equals(d: Duration, other: Value): (r: bool)
    ensures r <==> other == Rel(d)
  {
    match other
    case Rel(e) => Get(d, "seconds") == Get(e, "seconds") && Get(d, "months") == Get(e, "months")
    case Foreign => false
  }

  function Add(a: Duration, b: Duration): Duration {
    Duration(a.seconds + b.seconds, a.months + b.months)
  }

  function Sub(a: Duration, b: Duration): Duration {
    Duration(a.seconds - b.seconds, a.months - b.months)
  }

  /** `+`: component-wise sum; a non-RelativeTime operand raises ArgumentError. */
  function Plus(a: Duration, b: Value): (r: Result<Duration>)
    ensures r.Ok? <==> b.Rel?
    ensures r.Err? ==> r.error == ArgumentError
    ensures r.Ok? ==> Get(r.value, "seconds") == Ok(a.seconds + b.duration.seconds)
    ensures r.Ok? ==> Get(r.value, "months") == Ok(a.months + b.duration.months)
  {
    match b
    case Rel(e) => Ok(NewFromHash(map["seconds" := a.seconds + e.seconds, "months" := a.months + e.months]))
    case Foreign => Err(ArgumentError)
  }

  /** `-`: component-wise difference; a non-RelativeTime operand raises ArgumentError. */
  function Minus(a: Duration, b: Value): (r: Result<Duration>)
    ensures r.Ok? <==> b.Rel?
    ensures r.Err? ==> r.error == ArgumentError
    ensures r.Ok? ==> Get(r.value, "seconds") == Ok(a.seconds - b.duration.seconds)
    ensures r.Ok? ==> Get(r.value, "months") == Ok(a.months - b.duration.months)
  {
    match b
    case Rel(e) => Ok(NewFromHash(map["seconds" := a.seconds - e.seconds, "months" := a.months - e.months]))
    case Foreign => Err(ArgumentError)
  }

  /** Subtraction undoes addition: `(a + b) - b == a`. */
  lemma PlusThenMinus(a: Duration, b: Duration)
    ensures Plus(a, Rel(b)).Ok?
    ensures Minus(Plus(a, Rel(b)).value, Rel(b)) == Ok(a)
  {
    var s := Plus(a, Rel(b)).value;
    assert Get(s, "seconds") == Ok(s.seconds);
    assert Get(s, "months") == Ok(s.months);
    var t := Minus(s, Rel(b)).value;
    assert Get(t, "seconds") == Ok(t.seconds);
    assert Get(t, "months") == Ok(t.months);
  }

  /** `+` is commutative and has the empty duration as identity. */
  lemma PlusCommutes(a: Duration, b: Duration)
    ensures Plus(a, Rel(b)) == Plus(b, Rel(a))
    ensures Plus(a, Rel(Zero)) == Ok(a)
  {
    var s := Plus(a, Rel(b)).value;
    var t := Plus(b, Rel(a)).value;
    assert Get(s, "seconds") == Ok(s.seconds) && Get(t, "seconds") == Ok(t.seconds);
    assert Get(s, "months") == Ok(s.months) && Get(t, "months") == Ok(t.months);
    var z := Plus(a, Rel(Zero)).value;
    assert Get(z, "seconds") == Ok(z.seconds) && Get(z, "months") == Ok(z.months);
  }

  /** The operators agree with the plain component-wise helpers used internally. */
  lemma OperatorsAreComponentWise(a: Duration, b: Duration)
    ensures Plus(a, Rel(b)) == Ok(Add(a, b))
    ensures Minus(a, Rel(b)) == Ok(Sub(a, b))
  {
    var s := Plus(a, Rel(b)).value;
    assert Get(s, "seconds") == Ok(s.seconds) && Get(s, "months") == Ok(s.months);
    var t := Minus(a, Rel(b)).value;
    assert Get(t, "seconds") == Ok(t.seconds) && Get(t, "months") == Ok(t.months);
  }
}

=== FILE: formatting.dfy ===
/** `to_s`: a duration as text. A syntax names the units to show with their
    wording, the separator between a number and its unit name, the
    delimiter between entries and how many entries to show. The duration is
    broken into the syntax's units with `to_units`, zero and negative parts
    are dropped, the first `count` are kept and each one is written as its
    decimal number and its unit name. */
module Formatting {
  import opened Results
  import opened Units
  import opened Durations
  import opened Decomposition

  /** How a unit is written: one word for every count, or a list holding the
      singular and, optionally, the plural. */
  datatype Wording = Word(text: string) | Forms(forms: seq<string>)

  /** An entry of a syntax's `units` hash: a unit name and its wording. */
  type UnitWording = Pair<Wording>

  /** A hash entry that may be missing, present with `nil`, or present with a value. */
  datatype Setting<T> = Absent | Nil | Given(value: T)

  /** The `count` option: `:all` or a number. */
  datatype CountValue = Every | Limit(n: int)

  /** A syntax hash: `units`, `separator`, `delimiter` and `count`. */
  datatype Syntax = Syntax(
    units: Option<seq<UnitWording>>,
    separator: Setting<string>,
    delimiter: Setting<string>,
    count: Setting<CountValue>)

  /** No options at all: `options` is `nil` or `{}`. */
  const NoOptions := Syntax(None, Absent, Absent, Absent)

  /** The `format` argument: a Symbol naming a preset, a Hash, or anything else. */
  datatype Format = Preset(name: string) | Custom(syntax: Syntax) | Other

  function Words(pairs: seq<(string, string)>): (r: seq<UnitWording>)
    ensures |r| == |pairs|
    ensures forall i :: 0 <= i < |pairs| ==> r[i] == Pair(pairs[i].0, Word(pairs[i].1))
  {
    seq(|pairs|, i requires 0 <= i < |pairs| => Pair(pairs[i].0, Word(pairs[i].1)))
  }

  const Micro := Syntax(
    Some(Words([("seconds", "s"), ("minutes", "m"), ("hours", "h"), ("days", "d"),
                ("weeks", "w"), ("months", "mn"), ("years", "y")])),
    Given(""), Given(" "), Given(Limit(1)))

  const Short := Syntax(
    Some(Words([("seconds", "sec"), ("minutes", "min"), ("hours", "hr"), ("days", "d"),
                ("weeks", "wk"), ("months", "mn"), ("years", "yr"), ("centuries", "ct"),
                ("millennia", "ml")])),
    Given(""), Given(" "), Given(Limit(2)))

  /** The long preset spells the singular of millennia "millenium". */
  const Long := Syntax(
    Some([Pair("seconds", Forms(["second", "seconds"])),
          Pair("minutes", Forms(["minute", "minutes"])),
          Pair("hours", Forms(["hour", "hours"])),
          Pair("days", Forms(["day", "days"])),
          Pair("weeks", Forms(["week", "weeks"])),
          Pair("months", Forms(["month", "months"])),
          Pair("years", Forms(["year", "years"])),
          Pair("centuries", Forms(["century", "centuries"])),
          Pair("millennia", Forms(["millenium", "millennia"]))]),
    Absent, Absent, Absent)

  /** The first step of `to_s`: a Symbol is looked up among the presets
      (KeyError when unknown), a Hash is taken as is, anything else raises
      ArgumentError. */
  function SyntaxOf(f: Format): (r: Result<Syntax>)
    ensures f.Other? ==> r == Err(ArgumentError)
    ensures f.Custom? ==> r == Ok(f.syntax)
    ensures f.Preset? ==> (r.Ok? <==> f.name in {"micro", "short", "long"})
    ensures r.Err? && f.Preset? ==> r.error == KeyError
  {
    match f
    case Preset(name) =>
      if name == "micro" then Ok(Micro)
      else if name == "short" then Ok(Short)
      else if name == "long" then Ok(Long)
      else Err(KeyError)
    case Custom(s) => Ok(s)
    case Other => Err(ArgumentError)
  }

  function Override<T>(base: Setting<T>, over: Setting<T>): Setting<T> {
    if over.Absent? then base else over
  }

  /** `syntax.merge(options)`: every key present in the options, even with
      `nil`, replaces the syntax's entry. */
  function Merge(s: Syntax, o: Syntax): (r: Syntax)
    ensures o == NoOptions ==> r == s
    ensures o.units.Some? ==> r.units == o.units
    ensures o.units.None? ==> r.units == s.units
    ensures r.separator == (if o.separator.Absent? then s.separator else o.separator)
    ensures r.delimiter == (if o.delimiter.Absent? then s.delimiter else o.delimiter)
    ensures r.count == (if o.count.Absent? then s.count else o.count)
  {
    Syntax(if o.units.Some? then o.units else s.units,
           Override(s.separator, o.separator),
           Override(s.delimiter, o.delimiter),
           Override(s.count, o.count))
  }

  /** `x || default` for a hash entry. */
  function OrDefault(x: Setting<string>, default: string): string {
    if x.Given? then x.value else default
  }

  /** `count`: `nil` (or no entry) and `:all` stand for the number of units, ten. */
  function CountOf(s: Syntax): (n: int)
    ensures !(s.count.Given? && s.count.value.Limit?) ==> n == |AllUnits|
    ensures s.count.Given? && s.count.value.Limit? ==> n == s.count.value.n
  {
    match s.count
    case Given(Limit(n)) => n
    case _ => 10
  }

  /** `select { |unit, n| n > 0 }`. */
  function Positive(h: seq<Pair<int>>): (r: seq<Pair<int>>)
    ensures forall q :: q in r <==> q in h && q.value > 0
    ensures |r| <= |h|
    decreases |h|
  {
    if |h| == 0 then []
    else
      assert h == [h[0]] + h[1..];
      if h[0].value > 0 then [h[0]] + Positive(h[1..]) else Positive(h[1..])
  }

  /** The entries `to_s` shows, in order: the positive parts of `to_units`
      over the syntax's unit names, cut to `count`. A syntax without `units`
      raises KeyError, an unknown unit name or a negative count raises
      ArgumentError. */
  function Shown(d: Duration, s: Syntax): (r: Result<seq<Pair<int>>>)
    ensures s.units.None? ==> r == Err(KeyError)
    ensures s.units.Some? ==>
              (r.Ok? <==> ToUnits(d, Keys(s.units.value)).Ok? && CountOf(s) >= 0)
    ensures r.Err? && s.units.Some? ==> r.error == ArgumentError
    ensures r.Ok? ==> |r.value| <= CountOf(s)
    ensures r.Ok? ==> forall q :: q in r.value ==>
              q.value > 0 && q in ToUnits(d, Keys(s.units.value)).value
    ensures r.Ok? ==> (|r.value| == CountOf(s) ||
              forall q :: q in ToUnits(d, Keys(s.units.value)).value && q.value > 0 ==> q in r.value)
    ensures r.Ok? ==> var positive := Positive(ToUnits(d, Keys(s.units.value)).value);
              && r.value <= positive
              && |r.value| == (if CountOf(s) < |positive| then CountOf(s) else |positive|)
  {
    if s.units.None? then Err(KeyError)
    else
      var h :- ToUnits(d, Keys(s.units.value));
      var positive := Positive(h);
      var count := CountOf(s);
      if count < 0 then Err(ArgumentError)
      else if count < |positive| then
        assert forall q :: q in positive[..count] ==> q in positive;
        Ok(positive[..count])
      else Ok(positive)
  }

  /** `select` keeps the order of the hash: filtering a concatenation is
      filtering each half, so no entry moves ahead of one it followed. */
  lemma {:induction false} PositiveAppend(a: seq<Pair<int>>, b: seq<Pair<int>>)
    ensures Positive(a + b) == Positive(a) + Positive(b)
    decreases |a|
  {
    if |a| == 0 {
      assert a + b == b;
    } else {
      assert (a + b)[0] == a[0];
      assert (a + b)[1..] == a[1..] + b;
      PositiveAppend(a[1..], b);
    }
  }

  /** When at least one entry is shown, the first one is the first positive
      entry of `to_units`, that is, the largest unit with a non-zero part. */
  lemma FirstShownIsLargestPositive(d: Duration, s: Syntax, j: int)
    requires Shown(d, s).Ok? && CountOf(s) >= 1
    requires 0 <= j < |ToUnits(d, Keys(s.units.value)).value|
    requires ToUnits(d, Keys(s.units.value)).value[j].value > 0
    requires forall i :: 0 <= i < j ==> ToUnits(d, Keys(s.units.value)).value[i].value <= 0
    ensures |Shown(d, s).value| > 0 && Shown(d, s).value[0] == ToUnits(d, Keys(s.units.value)).value[j]
  {
    FirstPositive(ToUnits(d, Keys(s.units.value)).value, j);
  }

  /** The first entry `select` keeps is the first positive one. */
  lemma FirstPositive(h: seq<Pair<int>>, j: int)
    requires 0 <= j < |h| && h[j].value > 0
    requires forall i :: 0 <= i < j ==> h[i].value <= 0
    ensures |Positive(h)| > 0 && Positive(h)[0] == h[j]
  {
    assert h == h[..j] + h[j..];
    PositiveAppend(h[..j], h[j..]);
    PositiveNone(h[..j]);
    assert h[j..][0] == h[j];
  }

  /** Nothing is kept from entries that are all zero or negative. */
  lemma {:induction false} PositiveNone(h: seq<Pair<int>>)
    requires forall i :: 0 <= i < |h| ==> h[i].value <= 0
    ensures Positive(h) == []
    decreases |h|
  {
    if |h| > 0 {
      PositiveNone(h[1..]);
    }
  }

  /** The first wording listed under `name`, as `Hash#fetch` finds it. */
  function Lookup(ws: seq<UnitWording>, name: string): (r: Option<Wording>)
    ensures r.Some? <==> exists i :: 0 <= i < |ws| && ws[i].name == name
    ensures r.Some? ==> Pair(name, r.value) in ws
    decreases |ws|
  {
    if |ws| == 0 then None
    else if ws[0].name == name then Some(ws[0].value)
    else Lookup(ws[1..], name)
  }

  /** The unit name for a count: the singular for exactly one, otherwise the
      plural, falling back to the singular when there is none. A missing
      singular reads as the empty string. */
  function UnitName(w: Wording, n: int): (r: string)
    ensures w.Word? ==> r == w.text
    ensures w.Forms? && |w.forms| >= 1 && (n == 1 || |w.forms| == 1) ==> r == w.forms[0]
    ensures w.Forms? && |w.forms| >= 2 && n != 1 ==> r == w.forms[1]
    ensures w.Forms? && |w.forms| == 0 ==> r == ""
  {
    match w
    case Word(t) => t
    case Forms(f) =>
      var singular := if |f| > 0 then f[0] else "";
      if n == 1 then singular else if |f| > 1 then f[1] else singular
  }

  /** The decimal digit for `k`. */
  function DigitChar(k: int): (c: char)
    requires 0 <= k < 10
    ensures '0' <= c <= '9' && c as int - '0' as int == k
  {
    ('0' as int + k) as char
  }

  predicate IsDigit(c: char) {
    '0' <= c <= '9'
  }

  /** Decimal digits of a natural number, as `Integer#to_s` writes them. */
  function NatToString(n: nat): (s: string)
    ensures |s| >= 1 && forall i :: 0 <= i < |s| ==> IsDigit(s[i])
    ensures s[0] == '0' ==> n == 0
    decreases n
  {
    if n < 10 then [DigitChar(n)] else NatToString(n / 10) + [DigitChar(n % 10)]
  }

  /** The value of a string of decimal digits. */
  function ParseNat(s: string): (n: nat)
    requires forall i :: 0 <= i < |s| ==> IsDigit(s[i])
    decreases |s|
  {
    if |s| == 0 then 0
    else ParseNat(s[..|s| - 1]) * 10 + DigitValue(s[|s| - 1])
  }

  function DigitValue(c: char): (v: nat)
    requires IsDigit(c)
    ensures v < 10 && DigitChar(v) == c
  {
    c as int - '0' as int
  }

  /** Reading the decimal digits back gives the number. */
  lemma {:induction false} ParseNatToString(n: nat)
    ensures ParseNat(NatToString(n)) == n
    decreases n
  {
    var s := NatToString(n);
    if n < 10 {
      assert s[..0] == [];
    } else {
      var front := NatToString(n / 10);
      assert s == front + [DigitChar(n % 10)];
      assert s[..|s| - 1] == front;
      ParseNatToString(n / 10);
    }
  }

  /** `[n, unit_name].join(separator)`. */
  function Piece(n: nat, w: Wording, separator: string): string {
    NatToString(n) + separator + UnitName(w, n)
  }

  /** A piece starts with the number's digits, followed by the separator
      and the unit name. */
  lemma PieceReadsBack(n: nat, w: Wording, separator: string)
    ensures var p := Piece(n, w, separator); var k := |NatToString(n)|;
      && k <= |p|
      && (forall i :: 0 <= i < k ==> IsDigit(p[i]))
      && ParseNat(p[..k]) == n
      && p[k..] == separator + UnitName(w, n)
  {
    ParseNatToString(n);
    SplitAt(NatToString(n), separator + UnitName(w, n));
    assert Piece(n, w, separator) == NatToString(n) + (separator + UnitName(w, n));
  }

  lemma SplitAt(a: string, b: string)
    ensures (a + b)[..|a|] == a && (a + b)[|a|..] == b
    ensures forall i :: 0 <= i < |a| ==> (a + b)[i] == a[i]
  {
  }

  /** `Array#join(delimiter)`. */
  function Join(parts: seq<string>, delimiter: string): (r: string)
    ensures |parts| == 0 ==> r == ""
    ensures |parts| == 1 ==> r == parts[0]
    decreases |parts|
  {
    if |parts| == 0 then ""
    else if |parts| == 1 then parts[0]
    else parts[0] + delimiter + Join(parts[1..], delimiter)
  }

  /** Joining adds exactly one delimiter between two neighbouring parts. */
  lemma {:induction false} JoinLength(parts: seq<string>, delimiter: string)
    requires |parts| >= 1
    ensures |Join(parts, delimiter)| == SumOfLengths(parts) + (|parts| - 1) * |delimiter|
    decreases |parts|
  {
    if |parts| > 1 {
      JoinLength(parts[1..], delimiter);
      assert parts == [parts[0]] + parts[1..];
    }
  }

  /** Joining one more part appends the delimiter and that part: with the
      cases of no part and one part, this fixes the joined text as the
      parts in order with one delimiter between each two neighbours. */
  lemma {:induction false} JoinSnoc(parts: seq<string>, p: string, delimiter: string)
    requires |parts| >= 1
    ensures Join(parts + [p], delimiter) == Join(parts, delimiter) + delimiter + p
    decreases |parts|
  {
    assert (parts + [p])[0] == parts[0];
    if |parts| > 1 {
      assert (parts + [p])[1..] == parts[1..] + [p];
      JoinSnoc(parts[1..], p, delimiter);
    } else {
      assert (parts + [p])[1..] == [p];
    }
  }

  function SumOfLengths(parts: seq<string>): nat
    decreases |parts|
  {
    if |parts| == 0 then 0 else |parts[0]| + SumOfLengths(parts[1..])
  }

  /** Each shown entry written out, its wording fetched from the syntax's
      units (a missing one raises KeyError). */
  function Render(shown: seq<Pair<int>>, ws: seq<UnitWording>, separator: string): (r: Result<seq<string>>)
    requires forall i :: 0 <= i < |shown| ==> shown[i].value > 0
    ensures r.Ok? <==> forall i :: 0 <= i < |shown| ==> Lookup(ws, shown[i].name).Some?
    ensures r.Err? ==> r.error == KeyError
    ensures r.Ok? ==> |r.value| == |shown|
    ensures r.Ok? ==> forall i :: 0 <= i < |shown| ==>
              r.value[i] == Piece(shown[i].value, Lookup(ws, shown[i].name).value, separator)
    decreases |shown|
  {
    if |shown| == 0 then Ok([])
    else
      match Lookup(ws, shown[0].name)
      case None => Err(KeyError)
      case Some(w) =>
        var rest := Render(shown[1..], ws, separator);
        RenderStep(shown, ws, separator, w, rest);
        if rest.Err? then Err(KeyError)
        else Ok([Piece(shown[0].value, w, separator)] + rest.value)
  }

  /** Render of a non-empty list from the render of its tail. */
  lemma RenderStep(shown: seq<Pair<int>>, ws: seq<UnitWording>, separator: string, w: Wording, rest: Result<seq<string>>)
    requires |shown| > 0 && Lookup(ws, shown[0].name) == Some(w)
    requires forall i :: 0 <= i < |shown| ==> shown[i].value > 0
    requires rest.Ok? <==> forall i :: 0 <= i < |shown[1..]| ==> Lookup(ws, shown[1..][i].name).Some?
    requires rest.Ok? ==> |rest.value| == |shown[1..]|
    requires rest.Ok? ==> forall i :: 0 <= i < |shown[1..]| ==>
               rest.value[i] == Piece(shown[1..][i].value, Lookup(ws, shown[1..][i].name).value, separator)
    ensures rest.Ok? <==> forall i :: 0 <= i < |shown| ==> Lookup(ws, shown[i].name).Some?
    ensures rest.Ok? ==> var r := [Piece(shown[0].value, w, separator)] + rest.value;
              && |r| == |shown|
              && forall i :: 0 <= i < |shown| ==>
                   r[i] == Piece(shown[i].value, Lookup(ws, shown[i].name).value, separator)
  {
    assert forall i :: 1 <= i < |shown| ==> shown[i] == shown[1..][i - 1];
  }

  /** `to_s(format, options)`. */
  function ToS(d: Duration, format: Format, options: Syntax): (r: Result<string>)
    ensures SyntaxOf(format).Err? ==> r == Err(SyntaxOf(format).error)
  {
    var syntax :- SyntaxOf(format);
    var s := Merge(syntax, options);
    var shown :- Shown(d, s);
    var pieces :- Render(shown, s.units.value, OrDefault(s.separator, " "));
    Ok(Join(pieces, OrDefault(s.delimiter, ", ")))
  }

  /** Every name `to_units` returns is one of the syntax's own, so fetching
      its wording never fails. */
  lemma ShownNamesHaveWording(d: Duration, s: Syntax)
    requires Shown(d, s).Ok?
    ensures forall i :: 0 <= i < |Shown(d, s).value| ==> Shown(d, s).value[i].name in Keys(s.units.value)
  {
    var shown := Shown(d, s).value;
    var h := ToUnits(d, Keys(s.units.value)).value;
    forall i | 0 <= i < |shown| ensures shown[i].name in Keys(s.units.value) {
      assert shown[i] in shown;
      var j :| 0 <= j < |h| && h[j] == shown[i];
      assert Keys(h)[j] == shown[i].name;
    }
  }

  /** `to_s` fails exactly when the format is not a Symbol or Hash
      (ArgumentError), names an unknown preset (KeyError), has no `units`
      after merging (KeyError), names a unit that does not resolve
      (ArgumentError), or asks for a negative count (ArgumentError). */
  lemma ToSErrors(d: Duration, format: Format, options: Syntax)
    ensures var r := ToS(d, format, options);
      && (SyntaxOf(format).Err? ==> r == Err(SyntaxOf(format).error))
      && (SyntaxOf(format).Ok? ==>
            var s := Merge(SyntaxOf(format).value, options);
            && (s.units.None? ==> r == Err(KeyError))
            && (s.units.Some? ==>
                  (r.Ok? <==> (forall k :: k in Keys(s.units.value) ==> Resolve(k).Ok?) && CountOf(s) >= 0)
                  && (r.Err? ==> r.error == ArgumentError)))
  {
    if SyntaxOf(format).Ok? {
      var s := Merge(SyntaxOf(format).value, options);
      ToSFollowsShown(d, format, options);
      if s.units.Some? {
        var names := Keys(s.units.value);
        assert (forall i :: 0 <= i < |names| ==> Resolve(names[i]).Ok?)
           <==> (forall k :: k in names ==> Resolve(k).Ok?);
      }
    }
  }

  /** Once the syntax is known, `to_s` fails exactly when choosing the
      entries fails, and with the same error: rendering the chosen entries
      never fails. */
  lemma ToSFollowsShown(d: Duration, format: Format, options: Syntax)
    requires SyntaxOf(format).Ok?
    ensures var s := Merge(SyntaxOf(format).value, options);
            var r := ToS(d, format, options);
      && (r.Ok? <==> Shown(d, s).Ok?)
      && (r.Err? ==> Shown(d, s).Err? && r.error == Shown(d, s).error)
  {
    var s := Merge(SyntaxOf(format).value, options);
    if Shown(d, s).Ok? {
      ShownNamesHaveWording(d, s);
      var shown := Shown(d, s).value;
      forall i | 0 <= i < |shown| ensures shown[i].value > 0 {
        assert shown[i] in shown;
      }
      assert Render(shown, s.units.value, OrDefault(s.separator, " ")).Ok?;
    }
  }

  /** The text is the shown entries, each written as its digits, the
      separator and its unit name, joined with the delimiter; the defaults
      are a space and a comma followed by a space. */
  lemma ToSText(d: Duration, format: Format, options: Syntax)
    requires ToS(d, format, options).Ok?
    ensures var s := Merge(SyntaxOf(format).value, options);
            var shown := Shown(d, s).value;
            var sep := OrDefault(s.separator, " ");
      && |shown| <= CountOf(s)
      && (forall i :: 0 <= i < |shown| ==> shown[i].value > 0)
      && exists pieces: seq<string> ::
           && |pieces| == |shown|
           && ToS(d, format, options) == Ok(Join(pieces, OrDefault(s.delimiter, ", ")))
           && forall i :: 0 <= i < |shown| ==>
                pieces[i] == NatToString(shown[i].value) + sep + UnitName(Lookup(s.units.value, shown[i].name).value, shown[i].value)
  {
    var s := Merge(SyntaxOf(format).value, options);
    var shown := Shown(d, s).value;
    forall i | 0 <= i < |shown| ensures shown[i].value > 0 {
      assert shown[i] in shown;
    }
    var pieces := Render(shown, s.units.value, OrDefault(s.separator, " ")).value;
    assert ToS(d, format, options) == Ok(Join(pieces, OrDefault(s.delimiter, ", ")));
  }

  /** The empty duration has no positive part to show, so `to_s` writes
      it as the empty string whenever it does not fail. */
  lemma ZeroRendersEmpty(format: Format, options: Syntax)
    ensures ToS(Zero, format, options).Ok? ==> ToS(Zero, format, options).value == ""
  {
    if ToS(Zero, format, options).Ok? {
      var s := Merge(SyntaxOf(format).value, options);
      var shown := Shown(Zero, s).value;
      ToUnitsOfZero(Keys(s.units.value));
      assert Render(shown, s.units.value, OrDefault(s.separator, " ")) == Ok([]);
    }
  }

  /** A custom Hash without `units` raises KeyError, options notwithstanding,
      unless the options bring the units. */
  lemma CustomWithoutUnits(d: Duration, s: Syntax, options: Syntax)
    requires s.units.None? && options.units.None?
    ensures ToS(d, Custom(s), options) == Err(KeyError)
  {
  }
}

=== FILE: results.dfy ===
/** Failure-compatible wrappers for the exceptions the library raises. */
module Results {

  datatype Option<T> = None | Some(value: T)

  /** The two exception classes the relative-time code can raise:
      `ArgumentError` (unknown unit, bad `get` key, non-RelativeTime operand,
      bad format, negative count) and `KeyError` (a failed `Hash#fetch`). */
  datatype Error = ArgumentError | KeyError

  datatype Result<T> = Ok(value: T) | Err(error: Error) {
    predicate IsFailure() {
      Err?
    }

    function PropagateFailure<U>(): Result<U>
      requires Err?
    {
      Err(error)
    }

    function Extract(): T
      requires Ok?
    {
      value
    }
  }
}

=== FILE: units.dfy ===
/** The unit table of RelativeTime: ten units, each measured in one of two
    base domains (seconds or months), their names, and canonical sorting. */
module Units {
  import opened Results

  datatype Domain = SecondsDomain | MonthsDomain

  datatype Unit = Second | Minute | Hour | Day | Week | Month | Year | Decade | Century | Millennium

  /** The units in the ascending order of the `UNITS` table. */
  const AllUnits: seq<Unit> := [Second, Minute, Hour, Day, Week, Month, Year, Decade, Century, Millennium]

  /** Position of a unit in `AllUnits`; larger units have larger indices. */
  function Index(u: Unit): (i: nat)
    ensures i < |AllUnits| && AllUnits[i] == u
  {
    match u
    case Second => 0
    case Minute => 1
    case Hour => 2
    case Day => 3
    case Week => 4
    case Month => 5
    case Year => 6
    case Decade => 7
    case Century => 8
    case Millennium => 9
  }

  function DomainOf(u: Unit): Domain {
    if Index(u) < 5 then SecondsDomain else MonthsDomain
  }

  /** How many base units (seconds or months) one `u` holds. */
  function Factor(u: Unit): (f: int)
    ensures f >= 1
  {
    match u
    case Second => 1
    case Minute => 60
    case Hour => 60 * 60
    case Day => 24 * 60 * 60
    case Week => 7 * 24 * 60 * 60
    case Month => 1
    case Year => 12
    case Decade => 12 * 10
    case Century => 12 * 100
    case Millennium => 12 * 1000
  }

  /** The key of `u` in the `UNITS` table. */
  function Plural(u: Unit): string {
    match u
    case Second => "seconds"
    case Minute => "minutes"
    case Hour => "hours"
    case Day => "days"
    case Week => "weeks"
    case Month => "months"
    case Year => "years"
    case Decade => "decades"
    case Century => "centuries"
    case Millennium => "millennia"
  }

  /** The key of `u` in the `UNIT_PLURALS` table, which is also the name the
      count-form constructor accepts. */
  function Singular(u: Unit): string {
    match u
    case Second => "second"
    case Minute => "minute"
    case Hour => "hour"
    case Day => "day"
    case Week => "week"
    case Month => "month"
    case Year => "year"
    case Decade => "decade"
    case Century => "century"
    case Millennium => "millennium"
  }

  /** Within one domain, a later unit in the table is at least as large. */
  lemma FactorMonotone(u: Unit, v: Unit)
    requires DomainOf(u) == DomainOf(v) && Index(u) <= Index(v)
    ensures Factor(u) <= Factor(v)
  {
  }

  /** The next larger unit in the table, if any. */
  function Superior(u: Unit): (r: Option<Unit>)
    ensures r.None? <==> u == Millennium
    ensures r.Some? ==> Index(r.value) == Index(u) + 1
  {
    if Index(u) + 1 < |AllUnits| then Some(AllUnits[Index(u) + 1]) else None
  }

  lemma EveryUnitListed(u: Unit)
    ensures u in AllUnits
  {
    assert AllUnits[Index(u)] == u;
  }

  /** First unit of `us` whose `spelling` is `name`. */
  function Find(name: string, us: seq<Unit>, spelling: Unit -> string): (r: Option<Unit>)
    ensures r.Some? ==> r.value in us && spelling(r.value) == name
    ensures r.None? ==> forall u :: u in us ==> spelling(u) != name
  {
    if |us| == 0 then None
    else if spelling(us[0]) == name then Some(us[0])
    else Find(name, us[1..], spelling)
  }

  /** `normalize_unit` followed by `resolve_unit`: a `UNITS` key (plural) is
      taken as is, a `UNIT_PLURALS` key (singular) is mapped to its plural,
      anything else raises ArgumentError. */
  function Resolve(name: string): (r: Result<Unit>)
    ensures r.Ok? ==> name == Plural(r.value) || name == Singular(r.value)
    ensures r.Err? ==> r.error == ArgumentError
    ensures r.Err? <==> forall u: Unit :: name != Plural(u) && name != Singular(u)
  {
    match Find(name, AllUnits, Plural)
    case Some(u) => Ok(u)
    case None =>
      match Find(name, AllUnits, Singular)
      case Some(u) => Ok(u)
      case None =>
        assert forall u: Unit :: name != Plural(u) && name != Singular(u) by {
          forall u: Unit ensures name != Plural(u) && name != Singular(u) {
            EveryUnitListed(u);
          }
        }
        Err(ArgumentError)
  }

  /** No name is shared between two units, in either spelling. */
  lemma NamesAreDistinct(u: Unit, v: Unit)
    requires u != v
    ensures Plural(u) != Plural(v) && Singular(u) != Singular(v)
    ensures Plural(u) != Singular(v)
  {
  }

  /** Both spellings of every unit resolve to that unit. */
  lemma ResolveBothSpellings(u: Unit)
    ensures Resolve(Plural(u)) == Ok(u)
    ensures Resolve(Singular(u)) == Ok(u)
  {
    EveryUnitListed(u);
    var p := Resolve(Plural(u));
    if p.value != u {
      NamesAreDistinct(u, p.value);
    }
    var s := Resolve(Singular(u));
    if s.value != u {
      NamesAreDistinct(u, s.value);
      NamesAreDistinct(s.value, u);
    }
  }

  /** A unit name as the caller spelled it, paired with the unit it resolves to. */
  datatype Named = Named(name: string, unit: Unit)

  /** Resolves every name, failing on the first unknown one. */
  function ResolveAll(names: seq<string>): (r: Result<seq<Named>>)
    ensures r.Ok? <==> forall i :: 0 <= i < |names| ==> Resolve(names[i]).Ok?
    ensures r.Err? ==> r.error == ArgumentError
    ensures r.Ok? ==> |r.value| == |names|
    ensures r.Ok? ==> forall i :: 0 <= i < |names| ==>
                        r.value[i].name == names[i] && Resolve(names[i]) == Ok(r.value[i].unit)
  {
    if |names| == 0 then Ok([])
    else
      var u :- Resolve(names[0]);
      var rest :- ResolveAll(names[1..]);
      Ok([Named(names[0], u)] + rest)
  }

  /** Largest unit first. */
  predicate SortedDescending(xs: seq<Named>) {
    forall i, j :: 0 <= i < j < |xs| ==> Index(xs[i].unit) >= Index(xs[j].unit)
  }

  function Insert(x: Named, xs: seq<Named>): (r: seq<Named>)
    requires SortedDescending(xs)
    ensures SortedDescending(r)
    ensures |r| == |xs| + 1
    ensures r[0] == x || (|xs| > 0 && r[0] == xs[0])
    ensures multiset(r) == multiset(xs) + multiset{x}
    decreases |xs|
  {
    if |xs| == 0 then [x]
    else if Index(x.unit) >= Index(xs[0].unit) then [x] + xs
    else
      var tail := Insert(x, xs[1..]);
      assert xs == [xs[0]] + xs[1..];
      SortedCons(xs[0], tail);
      [xs[0]] + tail
  }

  /** A name no smaller than the head of a sorted list extends it. */
  lemma SortedCons(y: Named, tail: seq<Named>)
    requires SortedDescending(tail) && |tail| > 0 && Index(y.unit) >= Index(tail[0].unit)
    ensures SortedDescending([y] + tail)
  {
    var r := [y] + tail;
    forall i, j | 0 <= i < j < |r| ensures Index(r[i].unit) >= Index(r[j].unit) {
      if i == 0 {
        assert Index(tail[0].unit) >= Index(tail[j - 1].unit);
      }
    }
  }

  /** `sort_units(units).reverse`: the requested units, largest first.
      Ruby's `sort_by` leaves the order of equally ranked names (two
      spellings of one unit) unspecified; a stable sort followed by
      `reverse` would list them in reverse caller order. This sort keeps
      them in the caller's order, so in `to_units(:second, :seconds)` the
      first spelling receives the part and the second one zero. */
  function SortDescending(xs: seq<Named>): (r: seq<Named>)
    ensures SortedDescending(r)
    ensures multiset(r) == multiset(xs)
    ensures |r| == |xs|
  {
    if |xs| == 0 then []
    else
      assert xs == [xs[0]] + xs[1..];
      Insert(xs[0], SortDescending(xs[1..]))
  }

  /** Sorting neither drops nor invents a name. */
  lemma SortKeepsMembers(xs: seq<Named>)
    ensures forall y :: y in SortDescending(xs) <==> y in xs
  {
    var r := SortDescending(xs);
    forall y ensures y in r <==> y in xs {
      assert y in r <==> y in multiset(r);
      assert y in xs <==> y in multiset(xs);
    }
  }

  predicate DistinctNames(xs: seq<Named>) {
    forall i, j :: 0 <= i < j < |xs| ==> xs[i].name != xs[j].name
  }

  /** Inserting a name not yet present keeps the names distinct. */
  lemma {:induction false} InsertKeepsDistinct(x: Named, xs: seq<Named>)
    requires SortedDescending(xs) && DistinctNames(xs)
    requires forall i :: 0 <= i < |xs| ==> xs[i].name != x.name
    ensures DistinctNames(Insert(x, xs))
    decreases |xs|
  {
    if |xs| > 0 && Index(x.unit) < Index(xs[0].unit) {
      var tail := Insert(x, xs[1..]);
      InsertKeepsDistinct(x, xs[1..]);
      var r := Insert(x, xs);
      assert r == [xs[0]] + tail;
      forall j | 0 <= j < |tail| ensures tail[j].name != xs[0].name {
        assert tail[j] in multiset(tail);
        if tail[j] != x {
          var k :| 0 <= k < |xs[1..]| && xs[1..][k] == tail[j];
          assert xs[k + 1] == tail[j];
        }
      }
    }
  }

  /** Sorting keeps distinct names distinct. */
  lemma {:induction false} SortKeepsDistinct(xs: seq<Named>)
    requires DistinctNames(xs)
    ensures DistinctNames(SortDescending(xs))
    decreases |xs|
  {
    if |xs| > 0 {
      var rest := SortDescending(xs[1..]);
      SortKeepsDistinct(xs[1..]);
      SortKeepsMembers(xs[1..]);
      forall i | 0 <= i < |rest| ensures rest[i].name != xs[0].name {
        assert rest[i] in rest;
        var k :| 0 <= k < |xs[1..]| && xs[1..][k] == rest[i];
        assert xs[k + 1] == rest[i];
      }
      InsertKeepsDistinct(xs[0], rest);
    }
  }
}
